=== FILE: README.md ===
# NASA weather prediction: the statistical core in Dafny

The web page fetches daily maximum temperatures and precipitation for one point from
NASA POWER. Each arrives as an object `{ "YYYYMMDD": value }`. The page turns them into
a forecast in one of two modes:

- **single date**:
  - takes every year's value on the chosen month and day;
  - gives those values consecutive synthetic years and fits a least-squares line of value against year;
  - reads the line at the chosen year and moves it by a tenth of the standard deviation per year away from 2025;
  - reports a recency-weighted percentage of wet days (more than 0.5 of precipitation).
- **date range**: averages every value whose month and day fall in an inclusive
  window, in every year. It also reports a rain percentage in which each wet day earns a
  bonus of up to 0.5 for heavy rain.

This project models that pipeline over exact reals. It proves what each step computes
and how the steps fit together.

| module | file | models |
|---|---|---|
| `Outcomes` | outcomes.dfy | `Option` and `Result`, standing for NaN results and thrown errors |
| `DateKeys` | date_keys.dfy | The `YYYYMMDD` substring parser. The `getCurrentDateYYYYMMDD` formatter, with the clock as parameters. |
| `Series` | series.dfy | A fetched object as the sequence of entries that `for…in` visits |
| `Sums` | sums.dfy | The `reduce` sums and the deviation sums of least squares |
| `Filters` | filters.dfy | `filterObjectByDate` and `filterObjectByRange` |
| `Regression` | regression.dfy | `extractXY`, `linearRegression`, `calculateY`, `calcLinearRegression` |
| `Statistics` | statistics.dfy | The handler's inline mean, standard deviation, synthetic keys and year adjustment |
| `Rain` | rain.dfy | The two rain-percentage loops and `Math.round` |
| `Predict` | predict.dfy | The two modes of the predict handler put together |

Modelling choices:

- **Numbers.** JavaScript numbers are Dafny `real`s. `Math.round(x)` is `⌊x + 1/2⌋`.
- **`Math.sqrt`.** It is a parameter `sqrt`, constrained by `IsSquareRoot`: on non-negative arguments it returns the non-negative root.
- **The clock.** `new Date().getFullYear()` is the parameter `currentYear`. The formatter takes its year, month index and day as arguments.
- **NaN and exceptions.**
  - A computation that yields NaN or throws becomes an explicit outcome. `Failure(EmptySample)` is the `TypeError` of a seedless `reduce` on an empty array. `Failure(DegenerateFit)` is the 0/0 slope when every year is the same. `None` is a rain percentage computed as 0/0.
  - With no matching temperature, single-date mode throws inside the `try`. The page then shows an alert, and `PredictSingle` returns `Failure(EmptySample)`.
  - With a single match, the slope is NaN and the page shows the mean instead. The model does the same.
- **Date comparison.** The range filter compares `new Date(2000, month, day)` values. The model compares them as day numbers counted through the leap year 2000 (`DayNumber2000`). For keys whose month digits are `01`..`12`, that is the same order `Date` gives, including days that roll over into the next month.
- **Values, not references.** Series are values, so neither filter can change its input.

Two behaviours of the code are kept as written, although a percentage suggests otherwise:

- **Range-mode percentage above 100.** The heavy-rain bonus is added to the wet weight but not to the total. A window where every day is wet therefore reports 125 to 150, and 150 when every day has at least 1.0 (`Rain.MagnitudeRainChance`, `Predict.RangeHeavyRainShows150`).
- **Empty rain data.** Both rain formulas divide by a total that is 0 when no rain value matched. The page then shows `NaN%`. The model returns `None` rather than requiring non-empty input.

## Model

| member | source | states |
|---|---|---|
| DateKeys.NatToString | nasa-weather-prediction/app.js:102 | `${year}` is a non-empty digit string that parses back to the year, with no leading zero except for 0 itself, which is "0" |
| DateKeys.Format | nasa-weather-prediction/app.js:97-103 | The key is the year's digits, then two digits reading month index + 1, then two digits reading the day. The month has a leading zero exactly for months 1–9 and the day exactly for days 1–9. |
| DateKeys.PadTwoDigits | nasa-weather-prediction/app.js:100-101 | `padStart(2, '0')` of a number below 100 gives two digits that read back as the number, with a leading zero exactly when it is below 10 |
| DateKeys.FourDigitYear | nasa-weather-prediction/app.js:99-102 | Years 1000..9999 print as four characters, so the formatted key has eight |
| DateKeys.FormatThenParse | nasa-weather-prediction/app.js:97-103 | Parsing the formatted key with the substrings [0,4), [4,6) − 1 and [6,8) gives back year, month index and day |
| DateKeys.ParseThenFormat | nasa-weather-prediction/app.js:97-103 | Formatting the parsed fields of a valid key gives back the key (year without a leading zero) |
| DateKeys.ParseDigitsInjective | js/math.js:78 | Digit strings of equal length that parse to the same number are equal |
| DateKeys.ParseDigitsAppend | js/app.js:166 | Parsing a key built by concatenation: the year's value is shifted past the `MMDD` digits |
| Filters.Pick | filters.js:26-29 | Pushing the kept values never gives more than the input, and gives `[]` exactly when nothing is kept |
| Filters.PickIsMarkedElements | filters.js:26-29 | The j-th pushed value is the element at the j-th kept position |
| Filters.Select | filters.js:21-30 | A filter result is no longer than the series, and empty exactly when no entry is admitted (no error) |
| Filters.MatchingIndices | filters.js:21-30 | The admitted positions are ascending and are exactly the positions whose key the window admits |
| Filters.SelectIsMatchingValues | filters.js:21-30 | Each filter returns exactly the admitted values, each once, in series order |
| Filters.SelectKeepsProperty | filters.js:61-62 | A property of every admitted value holds of every returned value |
| Filters.SelectAgrees | filters.js:21-30 | Windows that admit the same entries return the same values |
| Filters.FilterByDateIgnoresYear | filters.js:15-26 | Targets that agree on `MMDD` give identical day-filter results |
| Filters.DayNumberOrder | filters.js:57-59 | For real calendar days, comparing the 2000 `Date` values is comparing month, then day (both directions) |
| Filters.FilterByRangeKeepsWindow | filters.js:46-63 | The range filter keeps an entry exactly when start ≤ (month, day) ≤ end in month-then-day order, both ends included |
| Filters.RangeAcrossYearEndIsEmpty | filters.js:57-61 | A start after the end in the calendar (no year-end wrap) gives `[]` |
| Filters.OneDayRangeIsDayFilter | filters.js:57-61 | A window from one `MMDD` to the same `MMDD` returns what the day filter returns |
| Filters.PickNarrowing | filters.js:61-62 | Picking with a narrower mask equals picking from the wider mask's result |
| Filters.WideningKeepsNarrowResult | filters.js:57-63 | An earlier start and a later end give a result that contains the narrower result as a subsequence |
| Regression.ExtractXY | js/math.js:72-85 | Parallel arrays of equal length: x[i] is the first four digits of key i read as a number, and y[i] is value i |
| Regression.ExtractXYIgnoresMonthDay | js/math.js:76-81 | Series that agree on years and values give the same regression input |
| Regression.LinearRegression | js/math.js:37-54 | An empty input throws. Equal x values give the NaN slope. Otherwise the fitted line passes through the mean point. |
| Regression.FitSatisfiesNormalEquations | js/math.js:45-51 | The fitted line's residuals are uncorrelated with x: Σ (x − x̄)·(y − (m·x + b)) = 0 |
| Regression.NormalEquationsDetermineFit | js/math.js:37-54 | Conversely, a line through the mean point whose residuals are uncorrelated with x is the returned fit, so the two normal equations characterise it |
| Regression.MeanOfAffine | js/math.js:39-40 | The mean of an affine image of x is that image of the mean |
| Regression.CrossOfAffine | js/math.js:45-48 | For y = a·x + b, num = a · den |
| Regression.ExactFitRecovered | js/math.js:45-51 | Points exactly on y = a·x + b with two distinct x give back slope a and intercept b |
| Regression.ConstantValuesGiveFlatTrend | js/math.js:45-51 | All y equal to c give slope 0 and intercept c |
| Regression.LineRisesBySlope | js/math.js:63-65 | `calculateY` reads the intercept at x = 0 and rises by the slope for each unit of x |
| Regression.TwoPointFitPassesThroughBoth | js/math.js:37-54 | Two points with distinct x: the fit is defined and passes through both |
| Regression.CalcLinearRegression | js/math.js:16-35 | The fit is defined exactly when the years are not all the same. `predictedValue` is the line read at the search key's year. The slope and intercept are `linearRegression` of `extractXY`. |
| Regression.ProjectionUsesOnlySearchYear | js/math.js:20 | Search keys with the same first four digits give the same result |
| Regression.ProjectionOfLinearSeries | js/math.js:16-35 | Values on one line in their years project to that line read at the search year |
| Regression.LinearSeriesPoints | js/math.js:72-85 | Such a series gives regression points that lie on the line, with x not all equal |
| Sums.SquaredDeviationZero | js/math.js:47 | Σ(x − c)² is zero exactly when every x is c |
| Sums.NoSpreadIffAllEqual | js/math.js:47 | The least-squares denominator is 0 exactly when all x are equal |
| Sums.SumAffine | js/math.js:39-40 | Σ(a·x + b) = a·Σx + n·b |
| Sums.SumBounds | js/app.js:147 | Element bounds bound the sum |
| Sums.AverageOfConstant | js/math.js:39-40 | The mean of copies of c is c |
| Sums.CrossDeviationProportional | js/math.js:45-48 | Deviations of y proportional to those of x make the cross sum that multiple of the squared sum |
| Statistics.Mean | js/app.js:147 | Mean times count is the sum for a non-empty sample. An empty sample gives 0 through the `\|\| 0` fallback. |
| Statistics.MeanWithinBounds | js/app.js:147 | The mean of values in [lo, hi] is in [lo, hi] |
| Statistics.MeanOfConstant | js/app.js:147 | The mean of a constant sample is that constant |
| Statistics.Variance | js/app.js:183-186 | The population variance: N times it is the squared deviation about the mean (divide by N, not N − 1). It is ≥ 0 and is 0 exactly when all values are equal |
| Statistics.TwoPointVariance | js/app.js:183-186 | Two values a, b have variance (a − b)² / 4: centred on their mean and divided by 2, not 1 |
| Statistics.Stdev | js/app.js:183-186 | The deviation is ≥ 0, its square is the variance, and it is 0 exactly when all values are equal |
| Statistics.Adjust | js/app.js:179-189 | The adjusted value equals the prediction exactly when the deviation is 0 or the year is 2025. With a positive deviation it lies above exactly for years after 2025. |
| Statistics.AdjustGrowsWithDistance | js/app.js:189 | From 2025 on, the adjustment grows strictly with the target year |
| Statistics.SyntheticKey | js/app.js:164-166 | A four-digit year followed by `MMDD` reads back as that year and `MMDD` |
| Statistics.SyntheticKeysDated | js/app.js:163-167 | The synthetic keys are valid, carry the years currentYear − N … currentYear − 1 with the target's `MMDD`, and are in key order |
| Statistics.SyntheticRegressionInput | js/app.js:163-169 | The regression sees those consecutive years against the values in order |
| Statistics.SyntheticFitDefined | js/app.js:163-169 | The fit is defined exactly when N ≥ 2. N = 1 gives the NaN slope and N = 0 throws. |
| Statistics.SyntheticProjectionOfLinearValues | js/app.js:163-169 | Values on a line over the synthetic years project that line to the target year |
| Rain.Round | js/app.js:208 | `Math.round` is within half of its argument, halves rounded up |
| Rain.RoundMonotone | js/app.js:208 | Rounding preserves order |
| Rain.RecencyWeight | js/app.js:200 | Each weight is in [0.7, 1) |
| Rain.RecencyWeightIncreasing | js/app.js:200 | Later days weigh strictly more |
| Rain.RecencyTallyBounds | js/app.js:199-205 | The wet weight is between 0 and the total. It is 0 exactly when no day is wet and equals the total exactly when every day is. |
| Rain.RecencyWetMonotone | js/app.js:201-202 | More wet days never lower the wet weight |
| Rain.TallyRecency | js/app.js:195-205 | The loop accumulates the wet weight and the total weight |
| Rain.RecencyRainChance | js/app.js:195-208 | None exactly for no days. Otherwise the result is in [0, 100]: 0 when no day is wet, 100 when every day is. |
| Rain.RecencyChanceMonotone | js/app.js:199-208 | More wet days never lower the single-date percentage |
| Rain.Boost | js/app.js:245 | The bonus is `min(v / 2, 0.5)`: never above v / 2 or 0.5 and equal to one of them, above 0.25 on a wet day, and exactly 0.5 from 1.0 up |
| Rain.MagnitudeTallyBounds | js/app.js:243-250 | The wet amount is in [0, 1.5·n]. It is 0 exactly when no day is wet, at least 1.25·n when all are, and 1.5·n when all have at least 1.0. |
| Rain.TallyMagnitude | js/app.js:239-250 | The loop accumulates the wet amount, with one unit of total per day |
| Rain.MagnitudeRainChance | js/app.js:239-253 | None exactly for no days. Otherwise the result is in [0, 150]: 0 when no day is wet, at least 125 when every day is, and 150 when every day has at least 1.0. |
| Rain.HeavyRainChance | js/app.js:245-253 | Days that all have at least 1.0 give 150 |
| Predict.PredictSingle | js/app.js:137-212 | Fails exactly when no temperature matches the date. The deviation is ≥ 0. The rain figure is missing exactly when no rain value matches, and is otherwise in [0, 100]. A single match is reported as itself with no spread. |
| Predict.ReportMatches | js/app.js:156-212 | The same facts for a non-empty set of matches |
| Predict.SyntheticEstimate | js/app.js:169-211 | One match: the shown estimate falls back to the mean, that value |
| Predict.SingleEstimateOfLinearHistory | js/app.js:163-189 | Matches on a line over their synthetic years give that line at the target year, adjusted by the deviation |
| Predict.SingleEstimateOfConstantHistory | js/app.js:163-212 | Two or more equal matches c give estimate c with no spread, for any target year |
| Predict.SingleDependsOnlyOnMatches | js/app.js:138-205 | Histories (and rain series) with the same matched values in the same order give the same report: the matches' own years never reach it |
| Predict.PredictRange | js/app.js:236-253 | An empty window averages to 0. The rain figure is missing exactly when no rain value is in the window, and is otherwise in [0, 150]. |
| Predict.RangeAverageWithinBounds | js/app.js:147 | The range average lies within any bounds on the window's temperatures |
| Predict.RangeAcrossYearEndReportsNothing | js/app.js:134-135 | A window running across the year end reports 0 and no rain figure |
| Predict.RangeHeavyRainShows150 | js/app.js:243-253 | A window whose days all have at least 1.0 of rain reports 150 |

## Left out

- The page itself is not modelled: the DOM, the Leaflet map, mode toggle, spinner, alerts and result HTML (js/app.js:5-114, 213-231, 268-277). It has no stateable behaviour beyond what `Predict` returns.
- The root `app.js` is not modelled: an older copy of the handler whose regression works on epoch milliseconds through the host `Date`, which is timezone dependent. `js/math.js` is the version in use.
- `charts.js` is not modelled: chart rendering and display-only histogram binning.
- `fetchData` is not modelled: network I/O and JSON decoding. The two series are inputs.
- The headings' `new Date(year, month, day).toDateString()` is not modelled: display only.
- `startYear` and `graphableIntercept` (js/app.js:172-175) are not modelled: they only feed the chart.
- The clock (`new Date().getFullYear()`, `new Date()` in the formatter) is read by the caller and passed in.
- `Math.sqrt` is passed in and constrained by `IsSquareRoot` rather than computed.
- IEEE-754 rounding, `toFixed(1)` and `Number(...)` are not modelled. The numbers are exact reals.
- The display fallbacks `!isNaN(...) ? ... : ...` are modelled only as the estimate's fallback to the mean.
- The request constants (`startDate`, `endDate`) are configuration, not logic.
- Predict.PredictSingle: requires `1000 + |FilterByDate(date, temps)| <= currentYear <= 10000`, that is, the number of matching days (not the length of the whole history) stays below the current year minus 999, so that every synthetic year has four digits and the synthetic keys keep the eight-character layout the parser reads. Years outside that span, where `${yearForKey}` has fewer or more digits, are not modelled.
- Predict.PredictRange: requires month digits `01`..`12` in every key, so the range comparison is read as `new Date(2000, month, day)`. Months outside that span, which roll into other years, are not modelled.

=== FILE: date_keys.dfy ===
/** The `YYYYMMDD` date key: the fixed-position parser used by the filters and the
    regression, and the formatter that builds a key from calendar fields. */
module DateKeys {

  type Key = string

  predicate IsDigit(c: char) {
    '0' <= c <= '9'
  }

  function DigitValue(c: char): nat
    requires IsDigit(c)
  {
    (c as int) - ('0' as int)
  }

  function DigitChar(d: nat): (c: char)
    requires d < 10
    ensures IsDigit(c) && DigitValue(c) == d
  {
    (('0' as int) + d) as char
  }

  predicate AllDigits(s: string) {
    forall i :: 0 <= i < |s| ==> IsDigit(s[i])
  }

  /** The value of a decimal digit string, as `parseInt(s, 10)` reads it. */
  function ParseDigits(s: string): nat
    requires AllDigits(s)
  {
    if |s| == 0 then 0 else 10 * ParseDigits(s[..|s| - 1]) + DigitValue(s[|s| - 1])
  }

  function Pow10(k: nat): nat {
    if k == 0 then 1 else 10 * Pow10(k - 1)
  }

  /** `String(n)` for a non-negative integer: its decimal digits, no leading zero. */
  function NatToString(n: nat): (r: string)
    ensures |r| >= 1 && AllDigits(r)
    ensures ParseDigits(r) == n
    ensures n >= 1 ==> r[0] != '0'
    ensures n == 0 ==> r == "0"
  {
    if n < 10 then [DigitChar(n)]
    else
      var prefix := NatToString(n / 10);
      var r := prefix + [DigitChar(n % 10)];
      assert r[..|r| - 1] == prefix;
      r
  }

  /** `s.padStart(2, '0')`: strings shorter than two characters get leading zeros. */
  function PadStart2(s: string): string {
    if |s| >= 2 then s else seq(2 - |s|, _ => '0') + s
  }

  /** An eight-character digit string, the shape every parsed key has. */
  predicate IsDigitKey(k: Key) {
    |k| == 8 && AllDigits(k)
  }

  /** `parseInt(key.substring(0, 4))` */
  function YearOf(k: Key): nat
    requires IsDigitKey(k)
  {
    ParseDigits(k[0..4])
  }

  /** `parseInt(key.substring(4, 6)) - 1`: the 0-based JavaScript month index. */
  function MonthIndex(k: Key): int
    requires IsDigitKey(k)
  {
    ParseDigits(k[4..6]) - 1
  }

  /** `parseInt(key.substring(6, 8))` */
  function DayOf(k: Key): nat
    requires IsDigitKey(k)
  {
    ParseDigits(k[6..8])
  }

  /** Month digits `01`..`12`: the month index is one `new Date(2000, month, day)` accepts
      without rolling into another year. */
  predicate HasMonth(k: Key) {
    IsDigitKey(k) && 0 <= MonthIndex(k) < 12
  }

  /** Days of each month in the leap year 2000, by 0-based month index. */
  function DaysIn2000(monthIndex: int): nat
    requires 0 <= monthIndex < 12
  {
    if monthIndex == 1 then 29
    else if monthIndex in {3, 5, 8, 10} then 30
    else 31
  }

  /** A key naming a real calendar day (Feb 29 allowed in every year, as in year 2000). */
  predicate IsCalendarKey(k: Key) {
    HasMonth(k) && 1 <= DayOf(k) <= DaysIn2000(MonthIndex(k))
  }

  /** `getCurrentDateYYYYMMDD` with the clock read passed in: the year's digits, then the
      1-based month and the day, each padded to two characters. */
  function Format(year: nat, monthIndex: nat, day: nat): (r: Key)
    requires monthIndex < 12 && 1 <= day <= 31
    ensures |r| == |NatToString(year)| + 4 && AllDigits(r)
    ensures r[..|r| - 4] == NatToString(year)
    ensures ParseDigits(r[|r| - 4..|r| - 2]) == monthIndex + 1
    ensures ParseDigits(r[|r| - 2..]) == day
    ensures r[|r| - 4] == '0' <==> monthIndex < 9
    ensures r[|r| - 2] == '0' <==> day < 10
  {
    var y := NatToString(year);
    var m := PadStart2(NatToString(monthIndex + 1));
    var d := PadStart2(NatToString(day));
    PadTwoDigits(monthIndex + 1);
    PadTwoDigits(day);
    ConcatDigits(y, m);
    ConcatDigits(y + m, d);
    ThreeParts(y, m, d);
    y + m + d
  }

  /** A string followed by two two-character strings splits back into the three. */
  lemma {:induction false} ThreeParts(y: string, m: string, d: string)
    requires |m| == 2 && |d| == 2
    ensures var r := y + m + d;
      && r[..|r| - 4] == y && r[|r| - 4..|r| - 2] == m && r[|r| - 2..] == d
      && r[|r| - 4] == m[0] && r[|r| - 2] == d[0]
  {
    var r := y + m + d;
    assert r[..|r| - 4] == y;
    assert r[|r| - 4..|r| - 2] == m;
    assert r[|r| - 2..] == d;
  }

  /** Joining digit strings gives a digit string. */
  lemma {:induction false} ConcatDigits(a: string, b: string)
    requires AllDigits(a) && AllDigits(b)
    ensures AllDigits(a + b)
  {
    forall i | 0 <= i < |a + b|
      ensures IsDigit((a + b)[i])
    {
      if i < |a| {
        assert (a + b)[i] == a[i];
      } else {
        assert (a + b)[i] == b[i - |a|];
      }
    }
  }

  /** Padding a number below 100 gives two digits that read back as the number,
      with a leading zero exactly when the number is below 10. */
  lemma {:induction false} PadTwoDigits(n: nat)
    requires n < 100
    ensures var p := PadStart2(NatToString(n));
      |p| == 2 && AllDigits(p) && ParseDigits(p) == n && (p[0] == '0' <==> n < 10)
  {
    var p := PadStart2(NatToString(n));
    if n < 10 {
      assert p == ['0', DigitChar(n)];
      assert p[..1] == ['0'];
    } else {
      var q := NatToString(n / 10);
      assert NatToString(n) == q + [DigitChar(n % 10)];
      assert q == [DigitChar(n / 10)];
    }
  }

  /** Four-digit years print as exactly four characters. */
  lemma {:induction false} FourDigitYear(year: nat)
    requires 1000 <= year <= 9999
    ensures |NatToString(year)| == 4
  {
    NatToStringLength(year);
    NatToStringLength(year / 10);
    NatToStringLength(year / 100);
  }

  /** Past one digit, the decimal form is one digit longer than that of n / 10. */
  lemma {:induction false} NatToStringLength(n: nat)
    requires n >= 10
    ensures |NatToString(n)| == |NatToString(n / 10)| + 1
  {
  }

  /** Formatting then parsing with the substring scheme recovers the calendar fields. */
  lemma {:induction false} FormatThenParse(year: nat, monthIndex: nat, day: nat)
    requires 1000 <= year <= 9999 && monthIndex < 12 && 1 <= day <= 31
    ensures var k := Format(year, monthIndex, day);
      IsDigitKey(k) && YearOf(k) == year && MonthIndex(k) == monthIndex && DayOf(k) == day
  {
    FourDigitYear(year);
    var k := Format(year, monthIndex, day);
    EightCharacterFields(k);
  }

  /** In an eight-character key the fields counted from the end are the fixed substrings. */
  lemma {:induction false} EightCharacterFields(k: string)
    requires |k| == 8
    ensures k[0..4] == k[..|k| - 4] && k[4..6] == k[|k| - 4..|k| - 2] && k[6..8] == k[|k| - 2..]
  {
  }

  /** Digit strings of the same length with the same value are the same string. */
  lemma {:induction false} ParseDigitsInjective(a: string, b: string)
    requires AllDigits(a) && AllDigits(b) && |a| == |b|
    requires ParseDigits(a) == ParseDigits(b)
    ensures a == b
  {
    if |a| > 0 {
      var n := |a| - 1;
      assert DigitValue(a[n]) == ParseDigits(a) % 10;
      assert DigitValue(b[n]) == ParseDigits(b) % 10;
      ParseDigitsInjective(a[..n], b[..n]);
      assert a == a[..n] + [a[n]];
      assert b == b[..n] + [b[n]];
    }
  }

  /** A digit string with a non-zero leading digit is at least 10^(length-1). */
  lemma {:induction false} LeadingDigitBound(s: string)
    requires AllDigits(s) && |s| >= 1 && s[0] != '0'
    ensures ParseDigits(s) >= Pow10(|s| - 1)
  {
    if |s| > 1 {
      LeadingDigitBound(s[..|s| - 1]);
    }
  }

  /** A digit string is below 10^length. */
  lemma {:induction false} ParseDigitsBound(s: string)
    requires AllDigits(s)
    ensures ParseDigits(s) < Pow10(|s|)
  {
    if |s| > 0 {
      ParseDigitsBound(s[..|s| - 1]);
    }
  }

  /** Parsing a valid key and formatting its fields reproduces the key, provided its year
      has no leading zero (the formatter prints years without padding). */
  lemma {:induction false} ParseThenFormat(k: Key)
    requires IsDigitKey(k) && k[0] != '0'
    requires 1 <= ParseDigits(k[4..6]) <= 12 && 1 <= DayOf(k) <= 31
    ensures Format(YearOf(k), MonthIndex(k) as nat, DayOf(k)) == k
  {
    YearDigits(k);
    var f := Format(YearOf(k), MonthIndex(k) as nat, DayOf(k));
    SameFields(f, k);
  }

  /** Two eight-digit keys with the same year digits and the same month and day values
      are the same key. */
  lemma {:induction false} SameFields(f: Key, k: Key)
    requires IsDigitKey(f) && IsDigitKey(k) && f[..4] == k[0..4]
    requires ParseDigits(f[4..6]) == ParseDigits(k[4..6]) && ParseDigits(f[6..]) == ParseDigits(k[6..8])
    ensures f == k
  {
    ParseDigitsInjective(f[4..6], k[4..6]);
    ParseDigitsInjective(f[6..], k[6..8]);
    assert f == f[..4] + f[4..6] + f[6..];
    assert k == k[0..4] + k[4..6] + k[6..8];
  }

  /** The year field of a key without a leading zero prints back as that field. */
  lemma {:induction false} YearDigits(k: Key)
    requires IsDigitKey(k) && k[0] != '0'
    ensures 1000 <= YearOf(k) <= 9999 && NatToString(YearOf(k)) == k[0..4]
  {
    var y := k[0..4];
    assert y[0] == k[0];
    LeadingDigitBound(y);
    ParseDigitsBound(y);
    assert Pow10(3) == 1000 && Pow10(4) == 10000;
    FourDigitYear(YearOf(k));
    ParseDigitsInjective(NatToString(YearOf(k)), y);
  }

  /** v followed by k zero digits. */
  function Shift(v: nat, k: nat): nat {
    v * Pow10(k)
  }

  /** One more zero digit multiplies by ten. */
  lemma {:induction false} ShiftStep(v: nat, k: nat)
    requires k > 0
    ensures Shift(v, k) == 10 * Shift(v, k - 1)
  {
    assert Pow10(k) == 10 * Pow10(k - 1);
  }

  /** Reading a concatenation: the digits of a shift left past those of b. */
  lemma {:induction false} ParseDigitsAppend(a: string, b: string)
    requires AllDigits(a) && AllDigits(b)
    ensures AllDigits(a + b)
    ensures ParseDigits(a + b) == Shift(ParseDigits(a), |b|) + ParseDigits(b)
  {
    ConcatDigits(a, b);
    if |b| > 0 {
      var n := |b| - 1;
      var b' := b[..n];
      assert (a + b)[..|a + b| - 1] == a + b';
      ParseDigitsAppend(a, b');
      assert b[..|b| - 1] == b';
      assert ParseDigits(a + b) == 10 * ParseDigits(a + b') + DigitValue(b[n]);
      assert ParseDigits(b) == 10 * ParseDigits(b') + DigitValue(b[n]);
      ShiftStep(ParseDigits(a), |b|);
    } else {
      assert a + b == a;
    }
  }
}

=== FILE: filters.dfy ===
/** The two calendar filters: entries on one month/day in every year, and entries inside
    an inclusive month/day window in every year. Both return values in series order and
    leave the series untouched (Dafny sequences are values). */
module Filters {
  import opened DateKeys
  import opened Series

  /** What a filter keeps: one calendar day, or a window of days from start to end. */
  datatype Window = OnDay(target: Key) | Between(start: Key, end: Key)

  /** The window's own keys can be read by its comparison. */
  predicate WindowReadable(w: Window) {
    match w
    case OnDay(t) => IsDigitKey(t)
    case Between(s, e) => HasMonth(s) && HasMonth(e)
  }

  /** A series key can be read by the window's comparison: eight digits for the day
      filter, plus a month `01`..`12` for the `Date`-based range comparison. */
  predicate KeyReadable(w: Window, k: Key) {
    if w.OnDay? then IsDigitKey(k) else HasMonth(k)
  }

  predicate Readable(w: Window, s: Series) {
    WindowReadable(w) && forall i :: 0 <= i < |s| ==> KeyReadable(w, s[i].key)
  }

  /** Same month and same day, the year ignored. */
  predicate SameMonthDay(k: Key, target: Key)
    requires IsDigitKey(k) && IsDigitKey(target)
  {
    MonthIndex(k) == MonthIndex(target) && DayOf(k) == DayOf(target)
  }

  /** Days in 2000 before the first of the month with this 0-based index. */
  function DaysBefore2000(monthIndex: int): nat
    requires 0 <= monthIndex <= 12
  {
    if monthIndex == 0 then 0 else DaysBefore2000(monthIndex - 1) + DaysIn2000(monthIndex - 1)
  }

  /** The day `new Date(2000, monthIndex, day)` falls on, counted from 31 December 1999.
      A day beyond the month's end rolls into the next month and day 0 is the previous
      month's last day, as the `Date` constructor does; `Date` values of 2000 compare
      exactly as these numbers do. */
  function DayNumber2000(monthIndex: int, day: int): int
    requires 0 <= monthIndex < 12
  {
    DaysBefore2000(monthIndex) + day
  }

  function DateValue(k: Key): int
    requires HasMonth(k)
  {
    DayNumber2000(MonthIndex(k), DayOf(k))
  }

  /** Whether the filter keeps an entry with this key. */
  predicate Admits(w: Window, k: Key)
    requires WindowReadable(w) && KeyReadable(w, k)
  {
    match w
    case OnDay(t) => SameMonthDay(k, t)
    case Between(s, e) => DateValue(s) <= DateValue(k) <= DateValue(e)
  }

  /** Whether the filter keeps each entry, position by position. */
  function Keeps(s: Series, w: Window): (m: seq<bool>)
    requires Readable(w, s)
    ensures |m| == |s| && forall i :: 0 <= i < |s| ==> m[i] == Admits(w, s[i].key)
  {
    seq(|s|, i requires 0 <= i < |s| && Readable(w, s) => Admits(w, s[i].key))
  }

  /** `b` with the elements whose mask bit is false dropped, the rest in order. */
  function Pick(b: seq<real>, mask: seq<bool>): (r: seq<real>)
    requires |mask| == |b|
    ensures |r| <= |b|
    ensures r == [] <==> forall i :: 0 <= i < |b| ==> !mask[i]
  {
    if |b| == 0 then []
    else
      var n := |b| - 1;
      assert forall i :: 0 <= i < n ==> mask[..n][i] == mask[i];
      Pick(b[..n], mask[..n]) + (if mask[n] then [b[n]] else [])
  }

  /** The values of the admitted entries in series order: the loop that pushes
      `dailyTemps[key]` for every matching key. */
  function Select(s: Series, w: Window): (r: seq<real>)
    requires Readable(w, s)
    ensures |r| <= |s|
    ensures r == [] <==> forall i :: 0 <= i < |s| ==> !Admits(w, s[i].key)
  {
    Pick(Values(s), Keeps(s, w))
  }

  /** `filterObjectByDate(date, dailyTemps)` */
  function FilterByDate(date: Key, dailyTemps: Series): seq<real>
    requires IsDigitKey(date) && DigitKeys(dailyTemps)
  {
    Select(dailyTemps, OnDay(date))
  }

  /** `filterObjectByRange(start, end, dailyTemps)` */
  function FilterByRange(start: Key, end: Key, dailyTemps: Series): seq<real>
    requires HasMonth(start) && HasMonth(end)
    requires MonthKeys(dailyTemps)
  {
    Select(dailyTemps, Between(start, end))
  }

  /** Ascending positions of the set bits of a mask. */
  function SetPositions(mask: seq<bool>): (idx: seq<int>)
    ensures forall j :: 0 <= j < |idx| ==> 0 <= idx[j] < |mask|
    ensures forall j, k :: 0 <= j < k < |idx| ==> idx[j] < idx[k]
    ensures forall i :: 0 <= i < |mask| ==> (i in idx <==> mask[i])
  {
    if |mask| == 0 then []
    else
      var n := |mask| - 1;
      assert forall i :: 0 <= i < n ==> mask[..n][i] == mask[i];
      SetPositions(mask[..n]) + (if mask[n] then [n] else [])
  }

  /** Picking keeps exactly the marked elements: the j-th kept value is the element at the
      j-th marked position. */
  lemma {:induction false} PickIsMarkedElements(b: seq<real>, mask: seq<bool>)
    requires |mask| == |b|
    ensures var r, idx := Pick(b, mask), SetPositions(mask);
      |r| == |idx| && forall j :: 0 <= j < |idx| ==> r[j] == b[idx[j]]
  {
    if |b| > 0 {
      var n := |b| - 1;
      var r', idx' := Pick(b[..n], mask[..n]), SetPositions(mask[..n]);
      PickIsMarkedElements(b[..n], mask[..n]);
      forall j | 0 <= j < |idx'|
        ensures 0 <= idx'[j] < n && r'[j] == b[idx'[j]]
      {
      }
      AppendMarked(r', idx', b, mask[n]);
      assert Pick(b, mask) == r' + (if mask[n] then [b[n]] else []);
      assert SetPositions(mask) == idx' + (if mask[n] then [n] else []);
    }
  }

  /** Extending the picked prefix by the last element when it is marked keeps each kept
      value at its position. */
  lemma {:induction false} AppendMarked(r': seq<real>, idx': seq<int>, b: seq<real>, keep: bool)
    requires |b| > 0 && |r'| == |idx'|
    requires forall j :: 0 <= j < |idx'| ==> 0 <= idx'[j] < |b| - 1 && r'[j] == b[idx'[j]]
    ensures var r, idx := r' + (if keep then [b[|b| - 1]] else []), idx' + (if keep then [|b| - 1] else []);
      |r| == |idx| && forall j :: 0 <= j < |idx| ==> 0 <= idx[j] < |b| && r[j] == b[idx[j]]
  {
  }

  /** Positions of the entries a window admits, in series order. */
  function MatchingIndices(s: Series, w: Window): (idx: seq<int>)
    requires Readable(w, s)
    ensures forall j :: 0 <= j < |idx| ==> 0 <= idx[j] < |s|
    ensures forall j, k :: 0 <= j < k < |idx| ==> idx[j] < idx[k]
    ensures forall i :: 0 <= i < |s| ==> (i in idx <==> Admits(w, s[i].key))
  {
    SetPositions(Keeps(s, w))
  }

  /** A filter returns exactly the values of the admitted entries, each once, in series
      order: its j-th value is the value at the j-th admitted position. */
  lemma {:induction false} SelectIsMatchingValues(s: Series, w: Window)
    requires Readable(w, s)
    ensures var r, idx := Select(s, w), MatchingIndices(s, w);
      |r| == |idx| && forall j :: 0 <= j < |idx| ==> r[j] == s[idx[j]].value
  {
    PickIsMarkedElements(Values(s), Keeps(s, w));
  }

  /** A property of every admitted entry's value holds of every selected value. */
  lemma {:induction false} SelectKeepsProperty(s: Series, w: Window, p: real -> bool)
    requires Readable(w, s)
    requires forall i :: 0 <= i < |s| && Admits(w, s[i].key) ==> p(s[i].value)
    ensures forall j :: 0 <= j < |Select(s, w)| ==> p(Select(s, w)[j])
  {
    var r, idx := Select(s, w), MatchingIndices(s, w);
    SelectIsMatchingValues(s, w);
    forall j | 0 <= j < |r|
      ensures p(r[j])
    {
      assert idx[j] in idx;
    }
  }

  /** Two windows that keep the same entries of a series select the same values. */
  lemma {:induction false} SelectAgrees(s: Series, w1: Window, w2: Window)
    requires Readable(w1, s) && Readable(w2, s)
    requires forall i :: 0 <= i < |s| ==> (Admits(w1, s[i].key) <==> Admits(w2, s[i].key))
    ensures Select(s, w1) == Select(s, w2)
  {
    assert Keeps(s, w1) == Keeps(s, w2);
  }

  /** The year of the target is ignored: targets agreeing on `MMDD` select the same values. */
  lemma {:induction false} FilterByDateIgnoresYear(d1: Key, d2: Key, dailyTemps: Series)
    requires IsDigitKey(d1) && IsDigitKey(d2) && DigitKeys(dailyTemps)
    requires d1[4..8] == d2[4..8]
    ensures FilterByDate(d1, dailyTemps) == FilterByDate(d2, dailyTemps)
  {
    assert d1[4..6] == d1[4..8][..2] == d2[4..8][..2] == d2[4..6];
    assert d1[6..8] == d1[4..8][2..] == d2[4..8][2..] == d2[6..8];
    SelectAgrees(dailyTemps, OnDay(d1), OnDay(d2));
  }

  /** `a` is `b` with some elements dropped and the rest kept in order. */
  ghost predicate IsSubsequence(a: seq<real>, b: seq<real>) {
    exists mask: seq<bool> :: |mask| == |b| && Pick(b, mask) == a
  }

  /** The bits of `narrow` at the positions `wide` marks. */
  function Restrict(narrow: seq<bool>, wide: seq<bool>): (m: seq<bool>)
    requires |narrow| == |wide|
  {
    if |wide| == 0 then []
    else
      var n := |wide| - 1;
      Restrict(narrow[..n], wide[..n]) + (if wide[n] then [narrow[n]] else [])
  }

  /** Picking with a mask that marks no more than another is picking from the other's
      result. */
  lemma {:induction false} PickNarrowing(b: seq<real>, narrow: seq<bool>, wide: seq<bool>)
    requires |narrow| == |wide| == |b|
    requires forall i :: 0 <= i < |b| ==> narrow[i] ==> wide[i]
    ensures |Restrict(narrow, wide)| == |Pick(b, wide)|
    ensures Pick(Pick(b, wide), Restrict(narrow, wide)) == Pick(b, narrow)
  {
    if |b| > 0 {
      var n := |b| - 1;
      PickNarrowing(b[..n], narrow[..n], wide[..n]);
      var p', m' := Pick(b[..n], wide[..n]), Restrict(narrow[..n], wide[..n]);
      assert Pick(b, narrow) == Pick(b[..n], narrow[..n]) + (if narrow[n] then [b[n]] else []);
      if wide[n] {
        assert Pick(b, wide) == p' + [b[n]] && Restrict(narrow, wide) == m' + [narrow[n]];
        PickLast(p', m', b[n], narrow[n]);
      } else {
        assert Pick(b, wide) == p' && Restrict(narrow, wide) == m';
      }
    }
  }

  /** Picking from a sequence extended by one element extends the pick by that element
      when it is marked. */
  lemma {:induction false} PickLast(b: seq<real>, mask: seq<bool>, x: real, keep: bool)
    requires |b| == |mask|
    ensures Pick(b + [x], mask + [keep]) == Pick(b, mask) + (if keep then [x] else [])
  {
    assert (b + [x])[..|b|] == b && (mask + [keep])[..|b|] == mask;
  }

  /** Widening the window (an earlier start, a later end) keeps everything the narrower
      window kept, in the same order. */
  lemma {:induction false} WideningKeepsNarrowResult(s1: Key, e1: Key, s2: Key, e2: Key, dailyTemps: Series)
    requires HasMonth(s1) && HasMonth(e1) && HasMonth(s2) && HasMonth(e2)
    requires MonthKeys(dailyTemps)
    requires DateValue(s2) <= DateValue(s1) && DateValue(e1) <= DateValue(e2)
    ensures IsSubsequence(FilterByRange(s1, e1, dailyTemps), FilterByRange(s2, e2, dailyTemps))
  {
    var narrow, wide := Keeps(dailyTemps, Between(s1, e1)), Keeps(dailyTemps, Between(s2, e2));
    PickNarrowing(Values(dailyTemps), narrow, wide);
  }

  /** Month-then-day order of two calendar keys, the year ignored. */
  predicate CalendarLeq(a: Key, b: Key)
    requires HasMonth(a) && HasMonth(b)
  {
    MonthIndex(a) < MonthIndex(b) || (MonthIndex(a) == MonthIndex(b) && DayOf(a) <= DayOf(b))
  }

  /** The days before a month and the days in it never exceed the days before a later month. */
  lemma {:induction false} DaysBeforeGrows(m1: int, m2: int)
    requires 0 <= m1 < m2 <= 12
    ensures DaysBefore2000(m1) + DaysIn2000(m1) <= DaysBefore2000(m2)
  {
    if m1 + 1 < m2 {
      DaysBeforeGrows(m1, m2 - 1);
    }
  }

  /** For real calendar days, comparing `Date` values of 2000 is comparing month, then day. */
  lemma {:induction false} DayNumberOrder(m1: int, d1: int, m2: int, d2: int)
    requires 0 <= m1 < 12 && 1 <= d1 <= DaysIn2000(m1)
    requires 0 <= m2 < 12 && 1 <= d2 <= DaysIn2000(m2)
    ensures DayNumber2000(m1, d1) <= DayNumber2000(m2, d2) <==> (m1 < m2 || (m1 == m2 && d1 <= d2))
  {
    if m1 < m2 {
      DaysBeforeGrows(m1, m2);
    } else if m2 < m1 {
      DaysBeforeGrows(m2, m1);
    }
  }

  /** For calendar keys the range filter keeps an entry exactly when its month and day
      lie between the start's and the end's, both ends included: its positions are those
      entries and no others. */
  lemma {:induction false} FilterByRangeKeepsWindow(start: Key, end: Key, dailyTemps: Series)
    requires IsCalendarKey(start) && IsCalendarKey(end)
    requires CalendarKeys(dailyTemps)
    ensures var idx := MatchingIndices(dailyTemps, Between(start, end));
      forall i :: 0 <= i < |dailyTemps| ==>
        (i in idx <==> CalendarLeq(start, dailyTemps[i].key) && CalendarLeq(dailyTemps[i].key, end))
  {
    forall i | 0 <= i < |dailyTemps|
      ensures Admits(Between(start, end), dailyTemps[i].key)
        <==> CalendarLeq(start, dailyTemps[i].key) && CalendarLeq(dailyTemps[i].key, end)
    {
      var k := dailyTemps[i].key;
      DayNumberOrder(MonthIndex(start), DayOf(start), MonthIndex(k), DayOf(k));
      DayNumberOrder(MonthIndex(k), DayOf(k), MonthIndex(end), DayOf(end));
    }
  }

  /** No wrap at the year end: a window whose start falls after its end in the calendar
      (say 20 December to 5 January) keeps nothing. */
  lemma {:induction false} RangeAcrossYearEndIsEmpty(start: Key, end: Key, dailyTemps: Series)
    requires IsCalendarKey(start) && IsCalendarKey(end)
    requires CalendarKeys(dailyTemps)
    requires !CalendarLeq(start, end)
    ensures FilterByRange(start, end, dailyTemps) == []
  {
    DayNumberOrder(MonthIndex(start), DayOf(start), MonthIndex(end), DayOf(end));
  }

  /** A window from a day to the same month and day selects what the day filter selects. */
  lemma {:induction false} OneDayRangeIsDayFilter(start: Key, end: Key, dailyTemps: Series)
    requires IsCalendarKey(start) && IsCalendarKey(end)
    requires CalendarKeys(dailyTemps)
    requires MonthIndex(start) == MonthIndex(end) && DayOf(start) == DayOf(end)
    ensures FilterByRange(start, end, dailyTemps) == FilterByDate(start, dailyTemps)
  {
    forall i | 0 <= i < |dailyTemps|
      ensures Admits(Between(start, end), dailyTemps[i].key) <==> Admits(OnDay(start), dailyTemps[i].key)
    {
      var k := dailyTemps[i].key;
      DayNumberOrder(MonthIndex(start), DayOf(start), MonthIndex(k), DayOf(k));
      DayNumberOrder(MonthIndex(k), DayOf(k), MonthIndex(start), DayOf(start));
    }
    SelectAgrees(dailyTemps, Between(start, end), OnDay(start));
  }
}

=== FILE: outcomes.dfy ===
/** Optional values and the two ways the prediction pipeline can fail. */
module Outcomes {

  datatype Option<+T> = None | Some(value: T)

  /** Why an estimate could not be produced.
      - EmptySample: nothing to average or regress; the source's `reduce` without a seed
        throws on an empty array and the request is abandoned.
      - DegenerateFit: every x value is the same, so the least-squares denominator is 0
        and the source's slope is NaN. */
  datatype Error = EmptySample | DegenerateFit

  datatype Result<+T> = Success(value: T) | Failure(error: Error)
}

=== FILE: predict.dfy ===
/** The statistical part of the predict handler: filter the history, then either project
    one date from its yearly values or summarise a window of dates. The clock read
    (`new Date().getFullYear()`) and `Math.sqrt` are parameters. */
module Predict {
  import opened Outcomes
  import opened DateKeys
  import opened Series
  import opened Sums
  import opened Filters
  import opened Regression
  import opened Statistics
  import opened Rain

  /** What single-date mode shows: the temperature estimate, its ± spread, and the
      chance of rain (None where the page would show NaN). */
  datatype SingleReport = SingleReport(estimate: real, spread: real, rainChance: Option<int>)

  /** What range mode shows: the average high and the chance of rain. */
  datatype RangeReport = RangeReport(average: real, rainChance: Option<int>)

  /** No entry of the series falls on the date's month and day. */
  predicate NoMatch(s: Series, date: Key)
    requires DigitKeys(s) && IsDigitKey(date)
  {
    forall i :: 0 <= i < |s| ==> !SameMonthDay(s[i].key, date)
  }

  /** No entry of the series falls inside the window. */
  predicate NoneWithin(s: Series, start: Key, end: Key)
    requires MonthKeys(s) && HasMonth(start) && HasMonth(end)
  {
    forall i :: 0 <= i < |s| ==> !Admits(Between(start, end), s[i].key)
  }

  /** Single-date mode. With no matching temperature the regression's seedless `reduce`
      throws and the request ends in the error alert; otherwise the matches are reported. */
  function PredictSingle(temps: Series, rain: Series, date: Key, currentYear: int, sqrt: real -> real)
    : (r: Result<SingleReport>)
    requires DigitKeys(temps) && DigitKeys(rain) && IsDigitKey(date) && IsSquareRoot(sqrt)
    requires 1000 + |FilterByDate(date, temps)| <= currentYear <= 10000
    ensures r.Failure? <==> NoMatch(temps, date)
    ensures r.Failure? ==> r.error == EmptySample
    ensures r.Success? ==> r.value.spread >= 0.0
    ensures r.Success? ==> (r.value.rainChance.None? <==> NoMatch(rain, date))
    ensures r.Success? && r.value.rainChance.Some? ==> 0 <= r.value.rainChance.value <= 100
    ensures r.Success? && |FilterByDate(date, temps)| == 1 ==>
      r.value.estimate == FilterByDate(date, temps)[0] && r.value.spread == 0.0
  {
    var filteredTemps := FilterByDate(date, temps);
    var filteredRain := FilterByDate(date, rain);
    if |filteredTemps| == 0 then Failure(EmptySample)
    else Success(ReportMatches(filteredTemps, filteredRain, date, currentYear, sqrt))
  }

  /** The report on the matching values: the estimate from their synthetic history, the
      spread, and the recency-weighted chance of rain. */
  function ReportMatches(filteredTemps: seq<real>, filteredRain: seq<real>, date: Key, currentYear: int,
                         sqrt: real -> real): (r: SingleReport)
    requires |filteredTemps| > 0 && IsDigitKey(date) && IsSquareRoot(sqrt)
    requires 1000 + |filteredTemps| <= currentYear <= 10000
    ensures r.spread >= 0.0
    ensures r.rainChance.None? <==> |filteredRain| == 0
    ensures r.rainChance.Some? ==> 0 <= r.rainChance.value <= 100
    ensures |filteredTemps| == 1 ==> r.estimate == filteredTemps[0] && r.spread == 0.0
  {
    var stdev := Stdev(filteredTemps, sqrt);
    assert |filteredTemps| == 1 ==> stdev == 0.0 by {
      if |filteredTemps| == 1 {
        SingletonAllEqual(filteredTemps);
      }
    }
    SingleReport(SyntheticEstimate(filteredTemps, date, currentYear, stdev), stdev, RecencyRainChance(filteredRain))
  }

  /** The matching values get synthetic consecutive years ending last year; when the fit
      is defined the estimate is its projection adjusted by the spread, and when it is not
      (a single match, the slope NaN) the page falls back to the mean, that one value. */
  function SyntheticEstimate(values: seq<real>, date: Key, currentYear: int, stdev: real): (r: real)
    requires |values| > 0 && IsDigitKey(date)
    requires 1000 + |values| <= currentYear <= 10000
    ensures |values| == 1 ==> r == values[0]
  {
    SyntheticDigitKeys(values, currentYear, date);
    var fit := CalcLinearRegression(SyntheticSeries(values, currentYear, date), date);
    assert |values| == 1 ==> fit.Failure? && Mean(values) == values[0] by {
      if |values| == 1 {
        SyntheticFitDefined(values, currentYear, date);
        MeanOfConstant(values, values[0]);
      }
    }
    Estimate(fit, stdev, YearOf(date), Mean(values))
  }

  /** `!isNaN(adjustedTemp) ? adjustedTemp : avgTemp`: the adjusted projection when the
      fit is defined, the mean otherwise. */
  function Estimate(fit: Result<Projection>, stdev: real, targetYear: int, avgTemp: real): real {
    match fit
    case Success(p) => Adjust(p.predictedValue, stdev, targetYear)
    case Failure(_) => avgTemp
  }

  /** When the matching values lie on a line over their synthetic years, the estimate is
      that line at the target year, moved by a tenth of the spread per year from 2025. */
  lemma {:induction false} SingleEstimateOfLinearHistory(filteredTemps: seq<real>, filteredRain: seq<real>, date: Key,
                                      currentYear: int, sqrt: real -> real, a: real, b: real)
    requires |filteredTemps| >= 2 && IsDigitKey(date) && IsSquareRoot(sqrt)
    requires 1000 + |filteredTemps| <= currentYear <= 10000
    requires forall i :: 0 <= i < |filteredTemps| ==>
      filteredTemps[i] == CalculateY((currentYear - |filteredTemps| + i) as real, a, b)
    ensures ReportMatches(filteredTemps, filteredRain, date, currentYear, sqrt).estimate
      == Adjust(CalculateY(YearOf(date) as real, a, b), Stdev(filteredTemps, sqrt), YearOf(date))
  {
    SyntheticProjectionOfLinearValues(filteredTemps, currentYear, date, a, b);
  }

  /** Matches that all have the same value c, at least two of them, predict c with no
      spread, whatever the target year. */
  lemma {:induction false} SingleEstimateOfConstantHistory(filteredTemps: seq<real>, filteredRain: seq<real>, date: Key,
                                        currentYear: int, sqrt: real -> real, c: real)
    requires |filteredTemps| >= 2 && IsDigitKey(date) && IsSquareRoot(sqrt)
    requires 1000 + |filteredTemps| <= currentYear <= 10000
    requires forall i :: 0 <= i < |filteredTemps| ==> filteredTemps[i] == c
    ensures var r := ReportMatches(filteredTemps, filteredRain, date, currentYear, sqrt);
      r.estimate == c && r.spread == 0.0
  {
    var n := |filteredTemps|;
    assert forall i :: 0 <= i < n ==> filteredTemps[i] == CalculateY((currentYear - n + i) as real, 0.0, c);
    SingleEstimateOfLinearHistory(filteredTemps, filteredRain, date, currentYear, sqrt, 0.0, c);
    assert AllEqual(filteredTemps);
  }

  /** Only the matched values, in series order, reach the report: the synthetic history
      replaces the matches' own years, so two histories with the same matches (and two
      rain series with the same matches) give the same report. */
  lemma {:induction false} SingleDependsOnlyOnMatches(t1: Series, t2: Series, r1: Series, r2: Series, date: Key,
                                                      currentYear: int, sqrt: real -> real)
    requires DigitKeys(t1) && DigitKeys(t2) && DigitKeys(r1) && DigitKeys(r2) && IsDigitKey(date) && IsSquareRoot(sqrt)
    requires 1000 + |FilterByDate(date, t1)| <= currentYear <= 10000
    requires FilterByDate(date, t1) == FilterByDate(date, t2)
    requires FilterByDate(date, r1) == FilterByDate(date, r2)
    ensures PredictSingle(t1, r1, date, currentYear, sqrt) == PredictSingle(t2, r2, date, currentYear, sqrt)
  {
  }

  /** Range mode. It never fails: an empty window averages to 0 through the `|| 0`
      fallback, and an empty rain window has no chance figure. */
  function PredictRange(temps: Series, rain: Series, start: Key, end: Key): (r: RangeReport)
    requires MonthKeys(temps) && MonthKeys(rain) && HasMonth(start) && HasMonth(end)
    ensures NoneWithin(temps, start, end) ==> r.average == 0.0
    ensures r.rainChance.None? <==> NoneWithin(rain, start, end)
    ensures r.rainChance.Some? ==> 0 <= r.rainChance.value <= 150
  {
    var filteredTemps := FilterByRange(start, end, temps);
    var filteredRain := FilterByRange(start, end, rain);
    RangeReport(Mean(filteredTemps), MagnitudeRainChance(filteredRain))
  }

  /** The range average lies within any bounds that hold for every temperature in the
      window. */
  lemma {:induction false} RangeAverageWithinBounds(temps: Series, rain: Series, start: Key, end: Key, lo: real, hi: real)
    requires MonthKeys(temps) && MonthKeys(rain) && HasMonth(start) && HasMonth(end)
    requires !NoneWithin(temps, start, end)
    requires forall i :: 0 <= i < |temps| && Admits(Between(start, end), temps[i].key) ==>
      lo <= temps[i].value <= hi
    ensures lo <= PredictRange(temps, rain, start, end).average <= hi
  {
    SelectKeepsProperty(temps, Between(start, end), v => lo <= v <= hi);
    MeanWithinBounds(FilterByRange(start, end, temps), lo, hi);
  }

  /** A window whose start falls after its end in the calendar reports an average of 0 and
      no chance of rain. */
  lemma {:induction false} RangeAcrossYearEndReportsNothing(temps: Series, rain: Series, start: Key, end: Key)
    requires IsCalendarKey(start) && IsCalendarKey(end)
    requires CalendarKeys(temps) && CalendarKeys(rain)
    requires !CalendarLeq(start, end)
    ensures PredictRange(temps, rain, start, end) == RangeReport(0.0, None)
  {
    RangeAcrossYearEndIsEmpty(start, end, temps);
    RangeAcrossYearEndIsEmpty(start, end, rain);
  }

  /** Every day in the rain window wet with at least 1.0: the chance shown is 150. */
  lemma {:induction false} RangeHeavyRainShows150(temps: Series, rain: Series, start: Key, end: Key)
    requires MonthKeys(temps) && MonthKeys(rain) && HasMonth(start) && HasMonth(end)
    requires !NoneWithin(rain, start, end)
    requires forall i :: 0 <= i < |rain| && Admits(Between(start, end), rain[i].key) ==> rain[i].value >= 1.0
    ensures PredictRange(temps, rain, start, end).rainChance == Some(150)
  {
    var fr := FilterByRange(start, end, rain);
    SelectKeepsProperty(rain, Between(start, end), v => v >= 1.0);
    HeavyRainChance(fr);
  }
}

=== FILE: rain.dfy ===
/** The two chance-of-rain estimates of the predict handler. A day is wet when its
    precipitation exceeds 0.5. The single-date estimate weights the filtered days by
    recency (0.7 for the first up to almost 1.0 for the last); the range estimate counts
    every day with weight 1 and adds a bonus of up to 0.5 for heavy rain to wet days. */
module Rain {
  import opened Outcomes

  const WetThreshold := 0.5

  predicate Wet(v: real) {
    v > WetThreshold
  }

  /** `Math.round(x)`: the nearest integer, halves rounded up. */
  function Round(x: real): (r: int)
    ensures x - 0.5 < r as real <= x + 0.5
  {
    (x + 0.5).Floor
  }

  /** Rounding preserves order. */
  lemma {:induction false} RoundMonotone(x: real, y: real)
    requires x <= y
    ensures Round(x) <= Round(y)
  {
  }

  /** Rounding a value already in [lo, hi] for integers lo, hi stays in [lo, hi]. */
  lemma {:induction false} RoundWithin(x: real, lo: int, hi: int)
    requires lo as real <= x <= hi as real
    ensures lo <= Round(x) <= hi
  {
  }

  /** `(part / whole) * 100` for 0 <= part <= whole, as a percentage in [0, 100]. */
  lemma {:induction false} PercentBounds(part: real, whole: real)
    requires 0.0 <= part <= whole && whole > 0.0
    ensures 0.0 <= part / whole * 100.0 <= 100.0
    ensures part == 0.0 ==> part / whole * 100.0 == 0.0
    ensures part == whole ==> part / whole * 100.0 == 100.0
  {
    assert part / whole <= whole / whole;
  }

  /** A larger part of the same whole is a larger percentage. */
  lemma {:induction false} PercentMonotone(p1: real, p2: real, whole: real)
    requires p1 <= p2 && whole > 0.0
    ensures p1 / whole * 100.0 <= p2 / whole * 100.0
  {
    assert p1 / whole <= p2 / whole;
  }

  // ---------------------------------------------------------------- single date

  /** `0.7 + 0.3 * (i / n)`, the weight of the i-th of n filtered days. */
  function RecencyWeight(i: nat, n: nat): (w: real)
    requires i < n
    ensures 0.7 <= w < 1.0
  {
    FractionBelowOne(i, n);
    0.7 + 0.3 * ((i as real) / (n as real))
  }

  lemma {:induction false} FractionBelowOne(i: nat, n: nat)
    requires i < n
    ensures 0.0 <= (i as real) / (n as real) < 1.0
  {
    assert (i as real) / (n as real) < (n as real) / (n as real);
  }

  /** Later days weigh more. */
  lemma {:induction false} RecencyWeightIncreasing(i: nat, j: nat, n: nat)
    requires i < j < n
    ensures RecencyWeight(i, n) < RecencyWeight(j, n)
  {
    assert (i as real) / (n as real) < (j as real) / (n as real);
  }

  /** The weight accumulated in `weightedRainCount` over the first k of the days. */
  function RecencyWet(rain: seq<real>, k: nat): real
    requires k <= |rain|
  {
    if k == 0 then 0.0
    else RecencyWet(rain, k - 1) + (if Wet(rain[k - 1]) then RecencyWeight(k - 1, |rain|) else 0.0)
  }

  /** The weight accumulated in `weightSum` over the first k of n days. */
  function RecencyTotal(n: nat, k: nat): real
    requires k <= n
  {
    if k == 0 then 0.0 else RecencyTotal(n, k - 1) + RecencyWeight(k - 1, n)
  }

  /** The wet weight lies between nothing and the total; it is nothing exactly when no
      day is wet and the whole total exactly when every day is. */
  lemma {:induction false} RecencyTallyBounds(rain: seq<real>, k: nat)
    requires k <= |rain|
    ensures 0.0 <= RecencyWet(rain, k) <= RecencyTotal(|rain|, k)
    ensures 0.7 * (k as real) <= RecencyTotal(|rain|, k) <= k as real
    ensures RecencyWet(rain, k) == 0.0 <==> forall i :: 0 <= i < k ==> !Wet(rain[i])
    ensures RecencyWet(rain, k) == RecencyTotal(|rain|, k) <==> forall i :: 0 <= i < k ==> Wet(rain[i])
  {
    if k > 0 {
      RecencyTallyBounds(rain, k - 1);
    }
  }

  /** Turning dry days wet never lowers the wet weight. */
  lemma {:induction false} RecencyWetMonotone(r1: seq<real>, r2: seq<real>, k: nat)
    requires |r1| == |r2| && k <= |r1|
    requires forall i :: 0 <= i < k ==> Wet(r1[i]) ==> Wet(r2[i])
    ensures RecencyWet(r1, k) <= RecencyWet(r2, k)
  {
    if k > 0 {
      RecencyWetMonotone(r1, r2, k - 1);
    }
  }

  /** The loop over `filteredRain` in single-date mode. */
  method TallyRecency(rain: seq<real>) returns (weightedRainCount: real, weightSum: real)
    ensures weightedRainCount == RecencyWet(rain, |rain|)
    ensures weightSum == RecencyTotal(|rain|, |rain|)
  {
    weightedRainCount, weightSum := 0.0, 0.0;
    for i := 0 to |rain|
      invariant weightedRainCount == RecencyWet(rain, i)
      invariant weightSum == RecencyTotal(|rain|, i)
    {
      var weight := RecencyWeight(i, |rain|);
      if Wet(rain[i]) {
        weightedRainCount := weightedRainCount + weight;
      }
      weightSum := weightSum + weight;
    }
  }

  /** `Math.round((weightedRainCount / weightSum) * 100)`; with no days the ratio is
      0/0 and there is no estimate. */
  function RecencyRainChance(rain: seq<real>): (r: Option<int>)
    ensures r.None? <==> |rain| == 0
    ensures r.Some? ==> 0 <= r.value <= 100
    ensures r.Some? && (forall i :: 0 <= i < |rain| ==> !Wet(rain[i])) ==> r.value == 0
    ensures r.Some? && (forall i :: 0 <= i < |rain| ==> Wet(rain[i])) ==> r.value == 100
  {
    if |rain| == 0 then None
    else
      var wet, total := RecencyWet(rain, |rain|), RecencyTotal(|rain|, |rain|);
      RecencyTallyBounds(rain, |rain|);
      PercentBounds(wet, total);
      RoundWithin(wet / total * 100.0, 0, 100);
      Some(Round(wet / total * 100.0))
  }

  /** More wet days (same count of days) never lower the single-date chance. */
  lemma {:induction false} RecencyChanceMonotone(r1: seq<real>, r2: seq<real>)
    requires |r1| == |r2| > 0
    requires forall i :: 0 <= i < |r1| ==> Wet(r1[i]) ==> Wet(r2[i])
    ensures RecencyRainChance(r1).value <= RecencyRainChance(r2).value
  {
    var total := RecencyTotal(|r1|, |r1|);
    RecencyTallyBounds(r1, |r1|);
    RecencyWetMonotone(r1, r2, |r1|);
    PercentMonotone(RecencyWet(r1, |r1|), RecencyWet(r2, |r2|), total);
    RoundMonotone(RecencyWet(r1, |r1|) / total * 100.0, RecencyWet(r2, |r2|) / total * 100.0);
  }

  // ---------------------------------------------------------------- date range

  /** `Math.min(v / 2, 0.5)`, the heavy-rain bonus. */
  function Boost(v: real): (b: real)
    ensures b <= 0.5
    ensures Wet(v) ==> b > 0.25
    ensures v >= 1.0 ==> b == 0.5
    ensures b <= v / 2.0 && (b == v / 2.0 || b == 0.5)
  {
    if v / 2.0 < 0.5 then v / 2.0 else 0.5
  }

  /** The amount accumulated in `weightedRainCount` over the first k days: each wet day
      adds its weight 1.0 plus its bonus. */
  function MagnitudeWet(rain: seq<real>, k: nat): real
    requires k <= |rain|
  {
    if k == 0 then 0.0
    else MagnitudeWet(rain, k - 1) + (if Wet(rain[k - 1]) then 1.0 + Boost(rain[k - 1]) else 0.0)
  }

  /** Each wet day adds more than 1.25 and at most 1.5, a dry day nothing. */
  lemma {:induction false} MagnitudeTallyBounds(rain: seq<real>, k: nat)
    requires k <= |rain|
    ensures 0.0 <= MagnitudeWet(rain, k) <= 1.5 * (k as real)
    ensures MagnitudeWet(rain, k) == 0.0 <==> forall i :: 0 <= i < k ==> !Wet(rain[i])
    ensures (forall i :: 0 <= i < k ==> Wet(rain[i])) ==> MagnitudeWet(rain, k) >= 1.25 * (k as real)
    ensures (forall i :: 0 <= i < k ==> rain[i] >= 1.0) ==> MagnitudeWet(rain, k) == 1.5 * (k as real)
  {
    if k > 0 {
      MagnitudeTallyBounds(rain, k - 1);
    }
  }

  /** The loop over `filteredRain` in range mode: every day weighs 1.0. */
  method TallyMagnitude(rain: seq<real>) returns (weightedRainCount: real, weightSum: real)
    ensures weightedRainCount == MagnitudeWet(rain, |rain|)
    ensures weightSum == |rain| as real
  {
    weightedRainCount, weightSum := 0.0, 0.0;
    for i := 0 to |rain|
      invariant weightedRainCount == MagnitudeWet(rain, i)
      invariant weightSum == i as real
    {
      var weight := 1.0;
      var rainBoost := Boost(rain[i]);
      if Wet(rain[i]) {
        weightedRainCount := weightedRainCount + (weight + rainBoost);
      }
      weightSum := weightSum + weight;
    }
  }

  /** `Math.round((weightedRainCount / weightSum) * 100)` in range mode. The bonus is added
      to the wet weight but not to the total, so the figure can exceed 100: it lies in
      [125, 150] when every day is wet and is 150 when every day has at least 1.0. */
  function MagnitudeRainChance(rain: seq<real>): (r: Option<int>)
    ensures r.None? <==> |rain| == 0
    ensures r.Some? ==> 0 <= r.value <= 150
    ensures r.Some? && (forall i :: 0 <= i < |rain| ==> !Wet(rain[i])) ==> r.value == 0
    ensures r.Some? && (forall i :: 0 <= i < |rain| ==> Wet(rain[i])) ==> 125 <= r.value
    ensures r.Some? && (forall i :: 0 <= i < |rain| ==> rain[i] >= 1.0) ==> r.value == 150
  {
    if |rain| == 0 then None
    else
      var n := |rain| as real;
      var wet := MagnitudeWet(rain, |rain|);
      MagnitudeTallyBounds(rain, |rain|);
      ScaledPercentBounds(wet, n);
      RoundWithin(wet / n * 100.0, 0, 150);
      Some(Round(wet / n * 100.0))
  }

  /** Days that all have at least 1.0 give the range figure 150. */
  lemma {:induction false} HeavyRainChance(rain: seq<real>)
    requires |rain| > 0
    requires forall i :: 0 <= i < |rain| ==> rain[i] >= 1.0
    ensures MagnitudeRainChance(rain) == Some(150)
  {
  }

  /** The percentage of n days whose amount is between 0 and 1.5 per day. */
  lemma {:induction false} ScaledPercentBounds(wet: real, n: real)
    requires n > 0.0 && 0.0 <= wet <= 1.5 * n
    ensures 0.0 <= wet / n * 100.0 <= 150.0
    ensures wet == 0.0 ==> wet / n * 100.0 == 0.0
    ensures wet >= 1.25 * n ==> wet / n * 100.0 >= 125.0
    ensures wet == 1.5 * n ==> wet / n * 100.0 == 150.0
  {
    assert wet / n <= (1.5 * n) / n;
    if wet >= 1.25 * n {
      QuotientAtLeast(wet, n, 1.25);
    }
  }

  lemma {:induction false} QuotientAtLeast(a: real, n: real, c: real)
    requires n > 0.0 && a >= c * n
    ensures a / n >= c
  {
  }
}

=== FILE: regression.dfy ===
/** Ordinary least squares of value against year, and its projection to a target year. */
module Regression {
  import opened Outcomes
  import opened DateKeys
  import opened Series
  import opened Sums

  datatype Trend = Trend(slope: real, intercept: real)

  /** What `calcLinearRegression` returns. */
  datatype Projection = Projection(predictedValue: real, slope: real, intercept: real)

  /** `extractXY(dataObj)`: parallel arrays of the year (first four key digits) and the
      value of every entry, in series order. */
  function ExtractXY(data: Series): (xy: (seq<int>, seq<real>))
    requires DigitKeys(data)
    ensures |xy.0| == |data| && |xy.1| == |data|
    ensures forall i :: 0 <= i < |data| ==> xy.0[i] == YearOf(data[i].key) && xy.1[i] == data[i].value
  {
    if |data| == 0 then ([], [])
    else
      var n := |data| - 1;
      var xy := ExtractXY(data[..n]);
      (xy.0 + [YearOf(data[n].key)], xy.1 + [data[n].value])
  }

  /** Month and day digits play no part: series that agree on years and values give the
      same regression input. */
  lemma {:induction false} ExtractXYIgnoresMonthDay(a: Series, b: Series)
    requires DigitKeys(a) && DigitKeys(b) && |a| == |b|
    requires forall i :: 0 <= i < |a| ==> a[i].key[..4] == b[i].key[..4] && a[i].value == b[i].value
    ensures ExtractXY(a) == ExtractXY(b)
  {
    var xa, xb := ExtractXY(a), ExtractXY(b);
    forall i | 0 <= i < |a|
      ensures xa.0[i] == xb.0[i]
    {
      assert a[i].key[0..4] == a[i].key[..4];
      assert b[i].key[0..4] == b[i].key[..4];
    }
    assert xa.0 == xb.0;
    assert xa.1 == xb.1;
  }

  function AsReals(xs: seq<int>): (r: seq<real>)
    ensures |r| == |xs| && forall i :: 0 <= i < |xs| ==> r[i] == xs[i] as real
  {
    seq(|xs|, i requires 0 <= i < |xs| => xs[i] as real)
  }

  /** `calculateY(x, slope, intercept)`: the line at x. */
  function CalculateY(x: real, slope: real, intercept: real): real {
    slope * x + intercept
  }

  /** The line reads its intercept at x = 0 and rises by the slope for every unit of x. */
  lemma {:induction false} LineRisesBySlope(x0: real, x1: real, slope: real, intercept: real)
    ensures CalculateY(0.0, slope, intercept) == intercept
    ensures CalculateY(x1, slope, intercept) - CalculateY(x0, slope, intercept) == slope * (x1 - x0)
  {
  }

  /** The slope and intercept formulas of least squares about centres mx and my. */
  function LeastSquares(x: seq<real>, y: seq<real>, mx: real, my: real): Trend
    requires |x| == |y| && SquaredDeviation(x, mx) != 0.0
  {
    Trend(Slope(x, y, mx, my), my - Times(Slope(x, y, mx, my), mx))
  }

  function Slope(x: seq<real>, y: seq<real>, mx: real, my: real): real
    requires |x| == |y| && SquaredDeviation(x, mx) != 0.0
  {
    CrossDeviation(x, y, mx, my) / SquaredDeviation(x, mx)
  }

  /** `linearRegression(x, y)`. An empty input has no mean (the seedless `reduce`
      throws); when every x is the same the denominator is 0 and the slope is undefined. */
  function LinearRegression(x: seq<real>, y: seq<real>): (r: Result<Trend>)
    requires |x| == |y|
    ensures r.Failure? <==> |x| == 0 || AllEqual(x)
    ensures |x| == 0 ==> r == Failure(EmptySample)
    ensures |x| > 0 && AllEqual(x) ==> r == Failure(DegenerateFit)
    ensures r.Success? ==> CalculateY(Average(x), r.value.slope, r.value.intercept) == Average(y)
  {
    if |x| == 0 then Failure(EmptySample)
    else
      var meanX := Average(x);
      var meanY := Average(y);
      NoSpreadIffAllEqual(x);
      if SquaredDeviation(x, meanX) == 0.0 then Failure(DegenerateFit)
      else Success(LeastSquares(x, y, meanX, meanY))
  }

  /** Σ (x[i] - mx)·(y[i] - (m·x[i] + b)): the x-deviations weighted by the residuals
      of the line with slope m and intercept b. */
  function ResidualCross(x: seq<real>, y: seq<real>, mx: real, m: real, b: real): real
    requires |x| == |y|
  {
    if |x| == 0 then 0.0
    else
      var n := |x| - 1;
      ResidualCross(x[..n], y[..n], mx, m, b) + Times(x[n] - mx, y[n] - CalculateY(x[n], m, b))
  }

  /** The fit solves the second normal equation: its residuals are uncorrelated with x.
      Together with the mean point in LinearRegression's contract these are the two
      equations whose only solution is the least-squares line. */
  lemma {:induction false} FitSatisfiesNormalEquations(x: seq<real>, y: seq<real>)
    requires |x| == |y|
    ensures var r := LinearRegression(x, y);
      r.Success? ==> ResidualCross(x, y, Average(x), r.value.slope, r.value.intercept) == 0.0
  {
    var r := LinearRegression(x, y);
    if r.Success? {
      var mx, my := Average(x), Average(y);
      NoSpreadIffAllEqual(x);
      var c, q := CrossDeviation(x, y, mx, my), SquaredDeviation(x, mx);
      var m := c / q;
      assert r.value == Trend(m, my - Times(m, mx));
      ResidualCrossAboutMean(x, y, mx, my, m, my - Times(m, mx));
      QuotientTimes(c, q);
    }
  }

  /** Conversely, a line through the mean point whose residuals are uncorrelated with x
      is the fit. */
  lemma {:induction false} NormalEquationsDetermineFit(x: seq<real>, y: seq<real>, m: real, b: real)
    requires |x| == |y| && |x| > 0 && !AllEqual(x)
    requires CalculateY(Average(x), m, b) == Average(y)
    requires ResidualCross(x, y, Average(x), m, b) == 0.0
    ensures LinearRegression(x, y) == Success(Trend(m, b))
  {
    var mx, my := Average(x), Average(y);
    NoSpreadIffAllEqual(x);
    var c, q := CrossDeviation(x, y, mx, my), SquaredDeviation(x, mx);
    assert b == my - Times(m, mx);
    ResidualCrossAboutMean(x, y, mx, my, m, b);
    TimesThenDivide(m, q);
  }

  /** For a line through (mx, my), the residual cross sum is the cross deviation less m
      times the squared deviation. */
  lemma {:induction false} ResidualCrossAboutMean(x: seq<real>, y: seq<real>, mx: real, my: real, m: real, b: real)
    requires |x| == |y| && b == my - Times(m, mx)
    ensures ResidualCross(x, y, mx, m, b)
      == CrossDeviation(x, y, mx, my) - Times(m, SquaredDeviation(x, mx))
  {
    if |x| > 0 {
      var n := |x| - 1;
      ResidualCrossAboutMean(x[..n], y[..n], mx, my, m, b);
      ResidualAboutMean(x[n], y[n], mx, my, m, b);
      ResidualStep(ResidualCross(x[..n], y[..n], mx, m, b), CrossDeviation(x[..n], y[..n], mx, my),
        SquaredDeviation(x[..n], mx), x[n] - mx, y[n] - my, y[n] - CalculateY(x[n], m, b), m);
    }
  }

  lemma {:induction false} ResidualAboutMean(x: real, y: real, mx: real, my: real, m: real, b: real)
    requires b == my - Times(m, mx)
    ensures y - CalculateY(x, m, b) == (y - my) - Times(m, x - mx)
  {
  }

  lemma {:induction false} ResidualStep(r: real, c: real, q: real, dx: real, dy: real, res: real, m: real)
    requires r == c - Times(m, q) && res == dy - Times(m, dx)
    ensures r + Times(dx, res) == (c + Times(dx, dy)) - Times(m, q + Square(dx))
  {
  }

  lemma {:induction false} QuotientTimes(c: real, q: real)
    requires q != 0.0
    ensures c - Times(c / q, q) == 0.0
  {
  }

  /** Points lying exactly on y = a·x + b, with at least two distinct x, give back a and b. */
  lemma {:induction false} ExactFitRecovered(x: seq<real>, y: seq<real>, a: real, b: real)
    requires |x| == |y| && |x| > 0 && !AllEqual(x)
    requires forall i :: 0 <= i < |x| ==> y[i] == CalculateY(x[i], a, b)
    ensures LinearRegression(x, y) == Success(Trend(a, b))
  {
    NoSpreadIffAllEqual(x);
    MeanOfAffine(x, y, a, b);
    CrossOfAffine(x, y, a, b);
    SlopeOfProportional(x, y, a);
    InterceptOfAffine(x, y, a, b);
  }

  lemma {:induction false} CrossOfAffine(x: seq<real>, y: seq<real>, a: real, b: real)
    requires |x| == |y| && |x| > 0
    requires forall i :: 0 <= i < |x| ==> y[i] == a * x[i] + b
    ensures CrossDeviation(x, y, Average(x), Average(y)) == Times(a, SquaredDeviation(x, Average(x)))
  {
    MeanOfAffine(x, y, a, b);
    CrossOfAffineAbout(x, y, a, b, Average(x), Average(y));
  }

  lemma {:induction false} CrossOfAffineAbout(x: seq<real>, y: seq<real>, a: real, b: real, mx: real, my: real)
    requires |x| == |y|
    requires forall i :: 0 <= i < |x| ==> y[i] == a * x[i] + b
    requires my == a * mx + b
    ensures CrossDeviation(x, y, mx, my) == Times(a, SquaredDeviation(x, mx))
  {
    CrossDeviationProportional(x, y, mx, my, a);
  }

  lemma {:induction false} InterceptOfAffine(x: seq<real>, y: seq<real>, a: real, b: real)
    requires |x| == |y| && |x| > 0
    requires SquaredDeviation(x, Average(x)) != 0.0
    requires Slope(x, y, Average(x), Average(y)) == a
    requires Average(y) == a * Average(x) + b
    ensures LeastSquares(x, y, Average(x), Average(y)) == Trend(a, b)
  {
    assert Times(Slope(x, y, Average(x), Average(y)), Average(x)) == a * Average(x);
  }

  /** The mean of an affine image is the image of the mean. */
  lemma {:induction false} MeanOfAffine(x: seq<real>, y: seq<real>, a: real, b: real)
    requires |x| == |y| && |x| > 0
    requires forall i :: 0 <= i < |x| ==> y[i] == a * x[i] + b
    ensures Average(y) == a * Average(x) + b
  {
    SumAffine(x, y, a, b);
    assert Sum(y) / (|x| as real) == (a * Sum(x) + (|x| as real) * b) / (|x| as real);
  }

  /** When the cross sum is a times the squared sum, the slope is a. */
  lemma {:induction false} SlopeOfProportional(x: seq<real>, y: seq<real>, a: real)
    requires |x| == |y| && |x| > 0
    requires SquaredDeviation(x, Average(x)) != 0.0
    requires CrossDeviation(x, y, Average(x), Average(y)) == Times(a, SquaredDeviation(x, Average(x)))
    ensures Slope(x, y, Average(x), Average(y)) == a
  {
    QuotientOfProportional(x, y, a);
  }

  lemma {:induction false} QuotientOfProportional(x: seq<real>, y: seq<real>, a: real)
    requires |x| == |y| && |x| > 0
    requires SquaredDeviation(x, Average(x)) != 0.0
    requires CrossDeviation(x, y, Average(x), Average(y)) == Times(a, SquaredDeviation(x, Average(x)))
    ensures CrossDeviation(x, y, Average(x), Average(y)) / SquaredDeviation(x, Average(x)) == a
  {
    TimesThenDivide(a, SquaredDeviation(x, Average(x)));
  }

  /** Constant values have a flat trend at that value. */
  lemma {:induction false} ConstantValuesGiveFlatTrend(x: seq<real>, y: seq<real>, c: real)
    requires |x| == |y| && |x| > 0 && !AllEqual(x)
    requires forall i :: 0 <= i < |y| ==> y[i] == c
    ensures LinearRegression(x, y) == Success(Trend(0.0, c))
  {
    ExactFitRecovered(x, y, 0.0, c);
  }

  /** The line through two points with different x. */
  function LineThrough(x0: real, y0: real, x1: real, y1: real): (t: Trend)
    requires x0 != x1
    ensures CalculateY(x0, t.slope, t.intercept) == y0 && CalculateY(x1, t.slope, t.intercept) == y1
  {
    var a := (y1 - y0) / (x1 - x0);
    assert a * (x1 - x0) == y1 - y0;
    SlopeThroughPoints(a, x0, y0, x1, y1);
    Trend(a, y0 - a * x0)
  }

  lemma {:induction false} SlopeThroughPoints(a: real, x0: real, y0: real, x1: real, y1: real)
    requires a * (x1 - x0) == y1 - y0
    ensures CalculateY(x0, a, y0 - a * x0) == y0 && CalculateY(x1, a, y0 - a * x0) == y1
  {
  }

  /** Through two points with different x the fit is the line through both. */
  lemma {:induction false} TwoPointFitPassesThroughBoth(x0: real, y0: real, x1: real, y1: real)
    requires x0 != x1
    ensures var r := LinearRegression([x0, x1], [y0, y1]);
      r.Success? && CalculateY(x0, r.value.slope, r.value.intercept) == y0
      && CalculateY(x1, r.value.slope, r.value.intercept) == y1
  {
    var t := LineThrough(x0, y0, x1, y1);
    assert !AllEqual([x0, x1]) by {
      assert [x0, x1][0] != [x0, x1][1];
    }
    ExactFitRecovered([x0, x1], [y0, y1], t.slope, t.intercept);
  }

  /** Every year in the input is the same one (vacuously so for no input). */
  predicate SingleYear(data: Series)
    requires DigitKeys(data)
  {
    forall i, j :: 0 <= i < |data| && 0 <= j < |data| ==> YearOf(data[i].key) == YearOf(data[j].key)
  }

  /** `calcLinearRegression(data, searchStringDate)`: fit value against year and read the
      line at the search key's year. */
  function CalcLinearRegression(data: Series, searchStringDate: Key): (r: Result<Projection>)
    requires DigitKeys(data) && IsDigitKey(searchStringDate)
    ensures r.Failure? <==> SingleYear(data)
    ensures |data| == 0 ==> r == Failure(EmptySample)
    ensures |data| > 0 && SingleYear(data) ==> r == Failure(DegenerateFit)
    ensures r.Success? ==>
      r.value.predictedValue == CalculateY(YearOf(searchStringDate) as real, r.value.slope, r.value.intercept)
    ensures r.Success? ==>
      var xy := ExtractXY(data);
      LinearRegression(AsReals(xy.0), xy.1) == Success(Trend(r.value.slope, r.value.intercept))
  {
    var xy := ExtractXY(data);
    var searchYear := YearOf(searchStringDate);
    var x := AsReals(xy.0);
    assert AllEqual(x) <==> SingleYear(data) by {
      if AllEqual(x) {
        forall i, j | 0 <= i < |data| && 0 <= j < |data|
          ensures YearOf(data[i].key) == YearOf(data[j].key)
        {
          assert x[i] == x[j];
        }
      }
    }
    match LinearRegression(x, xy.1)
    case Failure(e) => Failure(e)
    case Success(t) => Success(Projection(CalculateY(searchYear as real, t.slope, t.intercept), t.slope, t.intercept))
  }

  /** Only the search key's year matters. */
  lemma {:induction false} ProjectionUsesOnlySearchYear(data: Series, s1: Key, s2: Key)
    requires DigitKeys(data) && IsDigitKey(s1) && IsDigitKey(s2)
    requires s1[..4] == s2[..4]
    ensures CalcLinearRegression(data, s1) == CalcLinearRegression(data, s2)
  {
    assert s1[0..4] == s1[..4] && s2[0..4] == s2[..4];
  }

  /** When every value lies on one line in its year (and the years are not all the same),
      the projection is that line read at the search year. */
  lemma {:induction false} ProjectionOfLinearSeries(data: Series, searchStringDate: Key, a: real, b: real)
    requires DigitKeys(data) && IsDigitKey(searchStringDate) && !SingleYear(data)
    requires forall i :: 0 <= i < |data| ==> data[i].value == CalculateY(YearOf(data[i].key) as real, a, b)
    ensures CalcLinearRegression(data, searchStringDate)
      == Success(Projection(CalculateY(YearOf(searchStringDate) as real, a, b), a, b))
  {
    LinearSeriesPoints(data, a, b);
    ExactFitRecovered(AsReals(ExtractXY(data).0), ExtractXY(data).1, a, b);
  }

  lemma {:induction false} LinearSeriesPoints(data: Series, a: real, b: real)
    requires DigitKeys(data) && !SingleYear(data)
    requires forall i :: 0 <= i < |data| ==> data[i].value == CalculateY(YearOf(data[i].key) as real, a, b)
    ensures !AllEqual(AsReals(ExtractXY(data).0))
    ensures forall i :: 0 <= i < |data| ==> ExtractXY(data).1[i] == CalculateY(AsReals(ExtractXY(data).0)[i], a, b)
  {
    var x := AsReals(ExtractXY(data).0);
    assert forall i :: 0 <= i < |data| ==> x[i] == YearOf(data[i].key) as real;
  }
}

=== FILE: series.dfy ===
/** A historical series: the `{ YYYYMMDD: value }` object the climate service returns,
    as the sequence of entries that `for...in` and `Object.entries` visit. */
module Series {
  import opened DateKeys

  datatype Entry = Entry(key: Key, value: real)

  type Series = seq<Entry>

  /** Every key is an eight-digit `YYYYMMDD` string. */
  predicate DigitKeys(s: Series) {
    forall i :: 0 <= i < |s| ==> IsDigitKey(s[i].key)
  }

  /** Every key has month digits `01`..`12`. */
  predicate MonthKeys(s: Series) {
    forall i :: 0 <= i < |s| ==> HasMonth(s[i].key)
  }

  /** Every key names a real calendar day. */
  predicate CalendarKeys(s: Series) {
    MonthKeys(s) && forall i :: 0 <= i < |s| ==> IsCalendarKey(s[i].key)
  }

  /** Integer-like property names are visited in ascending numeric order, so a series
      read from an object has strictly increasing keys. */
  predicate Chronological(s: Series) {
    && DigitKeys(s)
    && forall i, j :: 0 <= i < j < |s| ==> ParseDigits(s[i].key) < ParseDigits(s[j].key)
  }

  function Values(s: Series): (r: seq<real>)
    ensures |r| == |s| && forall i :: 0 <= i < |s| ==> r[i] == s[i].value
  {
    if |s| == 0 then [] else Values(s[..|s| - 1]) + [s[|s| - 1].value]
  }
}

=== FILE: statistics.dfy ===
/** The single-date statistics the predict handler computes inline: the mean with its
    empty fallback, the population standard deviation, the series of synthetic yearly
    keys handed to the regression, and the variability adjustment by target year. */
module Statistics {
  import opened Outcomes
  import opened DateKeys
  import opened Series
  import opened Sums
  import opened Regression

  /** `reduce((a, b) => a + b, 0) / length || 0`: an empty sample gives 0/0, which is
      NaN and falls back to 0. */
  function Mean(values: seq<real>): (r: real)
    ensures |values| == 0 ==> r == 0.0
    ensures |values| > 0 ==> r * (|values| as real) == Sum(values)
  {
    if |values| == 0 then 0.0 else Average(values)
  }

  /** The mean of values within [lo, hi] lies within [lo, hi]. */
  lemma {:induction false} MeanWithinBounds(values: seq<real>, lo: real, hi: real)
    requires |values| > 0
    requires forall i :: 0 <= i < |values| ==> lo <= values[i] <= hi
    ensures lo <= Mean(values) <= hi
  {
    SumBounds(values, lo, hi);
    QuotientBounds(Sum(values), |values| as real, lo, hi);
  }

  lemma {:induction false} QuotientBounds(s: real, n: real, lo: real, hi: real)
    requires n > 0.0 && n * lo <= s <= n * hi
    ensures lo <= s / n <= hi
  {
    assert (n * lo) / n == lo && (n * hi) / n == hi;
  }

  /** The mean of a constant sample is that constant. */
  lemma {:induction false} MeanOfConstant(values: seq<real>, c: real)
    requires |values| > 0
    requires forall i :: 0 <= i < |values| ==> values[i] == c
    ensures Mean(values) == c
  {
    AverageOfConstant(values, c);
  }

  /** The population variance: mean squared deviation from the mean. */
  function Variance(values: seq<real>): (r: real)
    requires |values| > 0
    ensures r >= 0.0
    ensures r == 0.0 <==> AllEqual(values)
    ensures r * (|values| as real) == SquaredDeviation(values, Mean(values))
  {
    NoSpreadIffAllEqual(values);
    SquaredDeviation(values, Mean(values)) / (|values| as real)
  }

  /** Two values are spread a quarter of their squared difference about their midpoint:
      divided by N = 2, not by N - 1, and centred on the mean. */
  lemma {:induction false} TwoPointVariance(a: real, b: real)
    ensures Variance([a, b]) == Square(a - b) / 4.0
  {
    var s := [a, b];
    assert s[..|s| - 1] == [a];
    assert [a][..|[a]| - 1] == [];
    assert Sum([a]) == a;
    assert Sum(s) == a + b;
    var m := (a + b) / 2.0;
    assert Mean(s) == m;
    assert SquaredDeviation([a], m) == Square(a - m);
    assert SquaredDeviation(s, m) == Square(a - m) + Square(b - m);
    assert Square(a - m) == Square(a - b) / 4.0;
    assert Square(b - m) == Square(a - b) / 4.0;
  }

  /** What the model needs of `Math.sqrt`: on non-negative arguments it returns the
      non-negative root. */
  ghost predicate IsSquareRoot(sqrt: real -> real) {
    forall v: real :: v >= 0.0 ==> sqrt(v) >= 0.0 && Square(sqrt(v)) == v
  }

  /** `Math.sqrt(Σ (v - avgTemp)² / length)`, the population standard deviation. */
  function Stdev(values: seq<real>, sqrt: real -> real): (r: real)
    requires |values| > 0 && IsSquareRoot(sqrt)
    ensures r >= 0.0 && Square(r) == Variance(values)
    ensures r == 0.0 <==> AllEqual(values)
  {
    var r := sqrt(Variance(values));
    SquarePositive(r);
    r
  }

  /** The year the adjustment is anchored to. */
  const ReferenceYear := 2025

  /** The adjustment per year away from the reference, as a fraction of the deviation. */
  const VariabilityWeight := 0.1

  /** `predictedTemp + stdev * 0.1 * (targetYear - 2025)` */
  function Adjust(predicted: real, stdev: real, targetYear: int): (r: real)
    ensures r == predicted <==> stdev == 0.0 || targetYear == ReferenceYear
    ensures stdev > 0.0 ==> (r > predicted <==> targetYear > ReferenceYear)
  {
    var shift := stdev * VariabilityWeight * ((targetYear - ReferenceYear) as real);
    ProductSign(stdev * VariabilityWeight, (targetYear - ReferenceYear) as real);
    predicted + shift
  }

  /** The sign of a product from the signs of its factors. */
  lemma {:induction false} ProductSign(a: real, b: real)
    ensures a * b == 0.0 <==> a == 0.0 || b == 0.0
    ensures a > 0.0 ==> (a * b > 0.0 <==> b > 0.0)
  {
    if a != 0.0 && b != 0.0 {
      assert (a * b) / a == b;
    }
    if a > 0.0 && b > 0.0 {
      assert a * b > 0.0;
    }
    if a > 0.0 && b < 0.0 {
      assert a * (-b) > 0.0;
    }
  }

  /** The adjustment is zero at the reference year and its size grows with the distance
      from that year. */
  lemma {:induction false} AdjustGrowsWithDistance(predicted: real, stdev: real, y1: int, y2: int)
    requires stdev > 0.0 && ReferenceYear <= y1 < y2
    ensures predicted <= Adjust(predicted, stdev, y1) < Adjust(predicted, stdev, y2)
  {
    var s := stdev * VariabilityWeight;
    assert s > 0.0;
    assert s * ((y2 - ReferenceYear) as real) - s * ((y1 - ReferenceYear) as real) == s * ((y2 - y1) as real);
    ProductSign(s, (y2 - y1) as real);
    ProductSign(s, (y1 - ReferenceYear) as real);
  }

  /** The object the handler builds for the regression: the i-th of n filtered values gets
      the key `${currentYear - n + i}${MMDD}`, with MMDD taken from the search date. */
  function SyntheticSeries(values: seq<real>, currentYear: int, date: Key): (r: Series)
    requires IsDigitKey(date) && currentYear >= |values|
    ensures |r| == |values| && forall i :: 0 <= i < |r| ==> r[i].value == values[i]
  {
    seq(|values|, i requires 0 <= i < |values| =>
      Entry(NatToString(currentYear - |values| + i) + date[4..8], values[i]))
  }

  /** Years with four digits give a synthetic key that reads back as that year and the
      search date's month and day. */
  lemma {:induction false} SyntheticKey(year: nat, monthDay: string)
    requires 1000 <= year <= 9999 && |monthDay| == 4 && AllDigits(monthDay)
    ensures var k := NatToString(year) + monthDay;
      IsDigitKey(k) && YearOf(k) == year && k[4..8] == monthDay
      && ParseDigits(k) == year * 10000 + ParseDigits(monthDay)
  {
    FourDigitYear(year);
    var k := NatToString(year) + monthDay;
    assert k[0..4] == NatToString(year);
    assert k[4..8] == monthDay;
    ParseDigitsAppend(NatToString(year), monthDay);
    assert Pow10(4) == 10000 by {
      assert Pow10(1) == 10 && Pow10(2) == 100 && Pow10(3) == 1000;
    }
  }

  /** With four-digit years throughout, the synthetic keys are well formed, carry the
      consecutive years ending the year before currentYear, keep the search date's month
      and day, and are already in the order an object would list them. */
  lemma {:induction false} SyntheticKeysDated(values: seq<real>, currentYear: int, date: Key)
    requires IsDigitKey(date) && 1000 + |values| <= currentYear <= 10000
    ensures var r := SyntheticSeries(values, currentYear, date);
      && DigitKeys(r) && Chronological(r)
      && (forall i :: 0 <= i < |r| ==>
            YearOf(r[i].key) == currentYear - |values| + i && r[i].key[4..8] == date[4..8])
  {
    var r := SyntheticSeries(values, currentYear, date);
    var monthDay := date[4..8];
    forall i | 0 <= i < |r|
      ensures IsDigitKey(r[i].key) && YearOf(r[i].key) == currentYear - |values| + i
      ensures r[i].key[4..8] == monthDay
      ensures ParseDigits(r[i].key) == (currentYear - |values| + i) * 10000 + ParseDigits(monthDay)
    {
      SyntheticKey(currentYear - |values| + i, monthDay);
    }
  }

  /** The synthetic keys are well formed. */
  lemma {:induction false} SyntheticDigitKeys(values: seq<real>, currentYear: int, date: Key)
    requires IsDigitKey(date) && 1000 + |values| <= currentYear <= 10000
    ensures DigitKeys(SyntheticSeries(values, currentYear, date))
  {
    SyntheticKeysDated(values, currentYear, date);
  }

  /** The regression input of the synthetic series: consecutive years against the values
      in order. */
  lemma {:induction false} SyntheticRegressionInput(values: seq<real>, currentYear: int, date: Key)
    requires IsDigitKey(date) && 1000 + |values| <= currentYear <= 10000
    ensures var r := SyntheticSeries(values, currentYear, date);
      DigitKeys(r) &&
      var xy := ExtractXY(r);
      xy.1 == values && forall i :: 0 <= i < |values| ==> xy.0[i] == currentYear - |values| + i
  {
    SyntheticKeysDated(values, currentYear, date);
  }

  /** The synthetic years are distinct, so the fit is defined exactly when there are at
      least two values; one value leaves the slope undefined and none aborts. */
  lemma {:induction false} SyntheticFitDefined(values: seq<real>, currentYear: int, date: Key)
    requires IsDigitKey(date) && 1000 + |values| <= currentYear <= 10000
    ensures var r := SyntheticSeries(values, currentYear, date);
      DigitKeys(r) &&
      (|values| >= 2 <==> CalcLinearRegression(r, date).Success?)
      && (|values| == 1 ==> CalcLinearRegression(r, date) == Failure(DegenerateFit))
      && (|values| == 0 ==> CalcLinearRegression(r, date) == Failure(EmptySample))
  {
    var r := SyntheticSeries(values, currentYear, date);
    SyntheticKeysDated(values, currentYear, date);
    if |values| >= 2 {
      assert YearOf(r[0].key) != YearOf(r[1].key);
    } else {
      assert SingleYear(r);
    }
  }

  /** Values rising by a fixed step each year project that step's line to the search
      year: the synthetic years are read as the x of an exact fit. */
  lemma {:induction false} SyntheticProjectionOfLinearValues(values: seq<real>, currentYear: int, date: Key, a: real, b: real)
    requires IsDigitKey(date) && 1000 + |values| <= currentYear <= 10000 && |values| >= 2
    requires forall i :: 0 <= i < |values| ==>
      values[i] == CalculateY((currentYear - |values| + i) as real, a, b)
    ensures var r := SyntheticSeries(values, currentYear, date);
      DigitKeys(r) &&
      CalcLinearRegression(r, date) == Success(Projection(CalculateY(YearOf(date) as real, a, b), a, b))
  {
    var r := SyntheticSeries(values, currentYear, date);
    SyntheticKeysDated(values, currentYear, date);
    assert YearOf(r[0].key) != YearOf(r[1].key);
    forall i | 0 <= i < |r|
      ensures r[i].value == CalculateY(YearOf(r[i].key) as real, a, b)
    {
      assert r[i].value == values[i];
    }
    ProjectionOfLinearSeries(r, date, a, b);
  }
}

=== FILE: sums.dfy ===
/** Sums over sequences of reals shared by the regression and the statistics:
    the left fold `reduce((a, b) => a + b)` and the two deviation sums of least squares. */
module Sums {

  /** `s.reduce((a, b) => a + b, 0)`, accumulated left to right. */
  function Sum(s: seq<real>): real {
    if |s| == 0 then 0.0 else Sum(s[..|s| - 1]) + s[|s| - 1]
  }

  /** `s.reduce((a, b) => a + b) / s.length`; the seedless reduce needs an element. */
  function Average(s: seq<real>): (r: real)
    requires |s| > 0
  {
    Sum(s) / (|s| as real)
  }

  predicate AllEqual(s: seq<real>) {
    forall i, j :: 0 <= i < |s| && 0 <= j < |s| ==> s[i] == s[j]
  }

  /** One element is all equal to itself. */
  lemma {:induction false} SingletonAllEqual(s: seq<real>)
    requires |s| == 1
    ensures AllEqual(s)
  {
  }

  function Square(d: real): real {
    d * d
  }

  /** A square is non-negative and vanishes only at zero. */
  lemma {:induction false} SquarePositive(d: real)
    ensures Square(d) >= 0.0
    ensures d != 0.0 ==> Square(d) > 0.0
  {
    if d > 0.0 {
      assert Square(d) / d == d;
    } else if d < 0.0 {
      var e := -d;
      assert Square(d) == e * e;
      assert Square(d) / e == e;
    }
  }

  /** Σ (s[i] - m)², the least-squares denominator and the numerator of the variance. */
  function SquaredDeviation(s: seq<real>, m: real): (r: real)
    ensures r >= 0.0
  {
    if |s| == 0 then 0.0
    else
      var n := |s| - 1;
      SquarePositive(s[n] - m);
      SquaredDeviation(s[..n], m) + Square(s[n] - m)
  }

  /** The squared deviation vanishes exactly when every element is the centre. */
  lemma {:induction false} SquaredDeviationZero(s: seq<real>, m: real)
    ensures SquaredDeviation(s, m) == 0.0 <==> forall i :: 0 <= i < |s| ==> s[i] == m
  {
    if |s| > 0 {
      var n := |s| - 1;
      SquaredDeviationZero(s[..n], m);
      SquarePositive(s[n] - m);
      if SquaredDeviation(s, m) == 0.0 {
        assert forall i :: 0 <= i < n ==> s[i] == s[..n][i];
      }
    }
  }

  /** The product a·v as one named term: facts stated with it carry over from a lemma to
      its caller by matching the term rather than by re-deriving the product. */
  function Times(a: real, v: real): real {
    a * v
  }

  /** Dividing a·q by a non-zero q gives back a. */
  lemma {:induction false} TimesThenDivide(a: real, q: real)
    requires q != 0.0
    ensures Times(a, q) / q == a
  {
  }

  /** Σ (x[i] - mx)(y[i] - my), the least-squares numerator. */
  function CrossDeviation(x: seq<real>, y: seq<real>, mx: real, my: real): real
    requires |x| == |y|
  {
    if |x| == 0 then 0.0
    else
      var n := |x| - 1;
      CrossDeviation(x[..n], y[..n], mx, my) + Times(x[n] - mx, y[n] - my)
  }

  /** A sum of copies of one value is the count times the value. */
  lemma {:induction false} SumOfConstant(s: seq<real>, c: real)
    requires forall i :: 0 <= i < |s| ==> s[i] == c
    ensures Sum(s) == (|s| as real) * c
  {
    if |s| > 0 {
      SumOfConstant(s[..|s| - 1], c);
    }
  }

  /** Summing an affine image: Σ (a·x[i] + b) = a·Σ x + n·b. */
  lemma {:induction false} SumAffine(x: seq<real>, y: seq<real>, a: real, b: real)
    requires |x| == |y|
    requires forall i :: 0 <= i < |x| ==> y[i] == a * x[i] + b
    ensures Sum(y) == a * Sum(x) + (|x| as real) * b
  {
    if |x| > 0 {
      var n := |x| - 1;
      SumAffine(x[..n], y[..n], a, b);
    }
  }

  /** Bounds on every element bound the sum. */
  lemma {:induction false} SumBounds(s: seq<real>, lo: real, hi: real)
    requires forall i :: 0 <= i < |s| ==> lo <= s[i] <= hi
    ensures (|s| as real) * lo <= Sum(s) <= (|s| as real) * hi
  {
    if |s| > 0 {
      SumBounds(s[..|s| - 1], lo, hi);
    }
  }

  /** The average of a sequence whose elements all equal c is c. */
  lemma {:induction false} AverageOfConstant(s: seq<real>, c: real)
    requires |s| > 0
    requires forall i :: 0 <= i < |s| ==> s[i] == c
    ensures Average(s) == c
  {
    SumOfConstant(s, c);
  }

  /** A non-empty sequence has no spread around its average exactly when all its
      elements are equal. */
  lemma {:induction false} NoSpreadIffAllEqual(s: seq<real>)
    requires |s| > 0
    ensures SquaredDeviation(s, Average(s)) == 0.0 <==> AllEqual(s)
  {
    SquaredDeviationZero(s, Average(s));
    if AllEqual(s) {
      AverageOfConstant(s, s[0]);
    }
  }

  /** When y deviates from its centre in proportion a to x's deviation, the cross sum
      is a times the squared sum. */
  lemma {:induction false} CrossDeviationProportional(x: seq<real>, y: seq<real>, mx: real, my: real, a: real)
    requires |x| == |y|
    requires forall i :: 0 <= i < |x| ==> y[i] - my == a * (x[i] - mx)
    ensures CrossDeviation(x, y, mx, my) == Times(a, SquaredDeviation(x, mx))
  {
    if |x| > 0 {
      var n := |x| - 1;
      assert forall i :: 0 <= i < n ==> x[..n][i] == x[i] && y[..n][i] == y[i];
      CrossDeviationProportional(x[..n], y[..n], mx, my, a);
      assert y[n] - my == Times(a, x[n] - mx);
      ProportionalExtend(x, y, mx, my, a);
    }
  }

  lemma {:induction false} ProportionalExtend(x: seq<real>, y: seq<real>, mx: real, my: real, a: real)
    requires |x| == |y| > 0
    requires CrossDeviation(x[..|x| - 1], y[..|x| - 1], mx, my) == Times(a, SquaredDeviation(x[..|x| - 1], mx))
    requires y[|x| - 1] - my == Times(a, x[|x| - 1] - mx)
    ensures CrossDeviation(x, y, mx, my) == Times(a, SquaredDeviation(x, mx))
  {
    var n := |x| - 1;
    ProportionalStep(a, CrossDeviation(x[..n], y[..n], mx, my), SquaredDeviation(x[..n], mx), x[n] - mx, y[n] - my,
      CrossDeviation(x, y, mx, my), SquaredDeviation(x, mx));
  }

  /** One more term of each sum keeps the cross sum a times the squared sum. */
  lemma {:induction false} ProportionalStep(a: real, c: real, q: real, dx: real, dy: real, cross: real, total: real)
    requires c == Times(a, q) && dy == Times(a, dx)
    requires cross == c + Times(dx, dy) && total == q + Square(dx)
    ensures cross == Times(a, total)
  {
  }
}
